=== FILE: README.md ===
# serve: a model of the preview server's file handlers

`serve` is a small WEBrick server for previewing a site before it is built.
Each file extension it knows has a handler. The handler reads the requested
file, turns its text into a response body with its own `parse`, and sends
it with its own content type:

- Textile and Markdown text is converted to HTML and wrapped in
  `<html><body>` … `</body></html>`.
- Haml pages are rendered. They may use a `_layout.haml` from the nearest
  enclosing directory up to the content root, and may include partials with
  `render :partial => name`.
- Sass is compiled to CSS.
- `.email` files are shown as an HTML page: a header block with one row per
  header line, the message body verbatim, and the subject in the title.
- `.redirect` files answer with a 302 whose `Location` is the file's text
  with surrounding whitespace removed.

The project models that core in Dafny, one module per concern:

| file | module | what it holds |
|---|---|---|
| results.dfy | Results | `Option` and `Result` |
| paths.dfy | Paths | paths as sequences of names; splitting a string at '/' |
| text.dfy | Text | Ruby's `strip`, the line iteration of `String#each`, `Array#join` |
| responses.dfy | Responses | the response a handler fills in: status, content type, location, body |
| layout.dfy | Layout | `find_layout` over paths |
| layout_as_written.dfy | LayoutAsWritten | `find_layout` over strings, as written, for the finding below |
| haml.dfy | Haml | `HamlHandler#parse`, `Context#render`, `Context#render_partial` |
| email.dfy | Email | `EmailHandler#parse` |
| redirect.dfy | Redirect | `RedirectHandler#process` |
| handlers.dfy | Handlers | the handler table: extension, content type, parse, process |

The filesystem is a map from paths to file contents, so `File.file?` is a key
lookup and reading a file is a map read. The working directory (`Dir.pwd`),
which `find_layout` treats as the content root, is a parameter. The Haml
engine, RedCloth, BlueCloth and Sass are parameters too. The Haml engine is
a caller-supplied compiler from template text to pieces: literal output, a
`render` call with its options, and `yield`. It can also reject a template
with a syntax error.

Three behaviours of the code are easy to misread; the model follows the
code:

- A partial asked for by a partial or by the layout is resolved against the
  directory of the page being served, not the directory of the file asking
  for it. The `Context` keeps the top-level content file
  (`Haml.PartialRendersInSameContext`, `Haml.LayoutPartialUsesPageContext`).
- The underscore goes in front of the whole token, so `sub/a` is looked up
  as `_sub/a.haml`, not `sub/_a.haml` (`Haml.UnderscoreOnWholeToken`).
- Without a layout, the page is rendered on a plain object that has no
  `render` method. Any partial in such a page fails (`Haml.PartialsNeedLayout`).

## Model

| member | source | states |
|---|---|---|
| Handlers.HandlerFor | lib/serve.rb:7-9 | a handler found for an extension is one registered for exactly that extension |
| Handlers.HandlerForExtension | lib/serve.rb:7-9 | each handler is found again under its own extension, so no two handlers share one |
| Handlers.HandlerForIff | lib/serve.rb:7-9 | an extension is served exactly when some handler registered it |
| Handlers.ContentType | lib/serve.rb:37-39 | Sass is the only handler sending `text/css`; every other handler sends `text/html` |
| Handlers.ParseBody | lib/serve.rb:41-62 | Textile and Markdown succeed exactly when their converter does, and their body is that converter's output inside the HTML shell; a Haml body is the Haml page and fails exactly when it does; Sass passes the compiler's result through; an e-mail body is the e-mail page, failing only on empty text; a redirect's parse is the identity |
| Handlers.Serve | lib/serve.rb:16-20 | a response is 302 with a location exactly for the redirect handler; every other handler answers 200 with its content type and its parse output as the body, and fails exactly when its parse fails |
| Handlers.Shell | lib/serve.rb:52 | the page is `<html><body>`, then the converter's HTML, then `</body></html>`, and the HTML can be read back out from between them |
| Handlers.ServeRedirect | lib/serve.rb:172-180 | a redirect file's response is the one `RedirectHandler#process` builds, whatever the filesystem and converters |
| Handlers.ServeTextile | lib/serve.rb:47-53 | a Textile page is a 200 `text/html` response holding the converted HTML in the shell |
| Layout.FindLayout | lib/serve.rb:88-98 | the layout found is an existing `_layout.haml` in the content file's directory or an ancestor no higher than the root, with none in any nearer directory; there is none exactly when no such directory has one |
| Layout.FindLayoutWithinRoot | lib/serve.rb:90-96 | the layout found lies inside the content root and on the content file's own ancestor chain |
| Layout.NearestLayoutWins | lib/serve.rb:92-96 | a layout in a given ancestor is the answer exactly when no nearer directory holds one |
| Layout.NearestLayoutExample | lib/serve.rb:92-96 | for `R/a/b/c.haml` with layouts in `R/a` and `R`, the one in `R/a` is used; with none, there is no layout |
| Layout.FilesystemRootTerminates | lib/serve.rb:88-98 | with `/` as the content root, the search ends after looking in `/` |
| LayoutAsWritten.RootSlashNeverEnds | lib/serve.rb:89-97 | with `/` as the working directory and no layout, the string loop never ends, however much fuel it is given |
| LayoutAsWritten.OrdinaryRootEnds | lib/serve.rb:89-97 | for any content root and a file `root/dir/name` with no layout, the same loop ends after two rounds with no layout: the relative path keeps its leading `/`, so `File.dirname` reaches `/` |
| LayoutAsWritten.StuckAtDot | lib/serve.rb:93-96 | once the loop's path is `.`, it stays `.` and never meets the root, so only an existing layout at that one candidate could end it |
| Haml.ResolvePartial | lib/serve.rb:115-121 | a root-relative token resolves under the content root, any other token under the content file's directory; the first name under that base directory starts with `_` and the path ends in `.haml` |
| Haml.RootRelativeFirstChar | lib/serve.rb:117 | for a one-line token, `%r{^/}` matches exactly when its first character is '/' |
| Haml.ResolveSiblingName | lib/serve.rb:120-121 | a plain name `n` is the file `_n.haml` beside the content file |
| Haml.ResolveRootName | lib/serve.rb:117-121 | `/n` is the file `_n.haml` in the content root, wherever the content file is |
| Haml.UnderscoreOnWholeToken | lib/serve.rb:121 | `dir/name` is looked up as `_dir/name.haml` |
| Haml.PartialExamples | lib/serve.rb:115-121 | for a page at `R/x/y.haml`, `foo` is `R/x/_foo.haml` and `/foo` is `R/_foo.haml` |
| Haml.ContextRender | lib/serve.rb:105-113 | without `:partial` the call fails naming the options it was given, and only then; every error keeps the render-error invariant |
| Haml.RenderIgnoresOtherKeys | lib/serve.rb:106-108 | with `:partial` present, every other option is ignored |
| Haml.RenderPartial | lib/serve.rb:115-129 | a partial renders only if its file exists; a missing file is an error naming the resolved path; errors keep the invariant |
| Haml.RenderPieces | lib/serve.rb:78-84 | a missing partial reported from a render is absent and is what some token resolves to in the scope's one context; only a plain object lacks `render` |
| Haml.Parse | lib/serve.rb:68-86 | a missing partial is absent and is a path some token resolves to in the context of the page being served (which token, and so which directory, Haml.LayoutPartialUsesPageContext and Haml.PartialRendersInSameContext decide); a missing `render` method happens only when there is no layout; unsupported options never hold `:partial` |
| Haml.PartialRendersInSameContext | lib/serve.rb:115-125 | for any files, engine and tokens, a partial's own `render` call runs in the same context, so the partial it names is resolved against the page's directory, not the partial's |
| Haml.NestedPartialUsesContentDirectory | lib/serve.rb:115-125 | in a concrete tree, a partial's own partial is found beside the page, while the file beside the partial is never looked at |
| Haml.NoLayoutRendersAlone | lib/serve.rb:84 | without a layout, the page is its own template rendered once, or the syntax error |
| Haml.PartialsNeedLayout | lib/serve.rb:74-84 | without a layout, a page whose first non-literal piece is a `render` call fails with no `render` method |
| Haml.RenderStatic | lib/serve.rb:79-82 | rendering a layout without `render` calls puts the block's value at each `yield` |
| Haml.YieldIsContent | lib/serve.rb:80-82 | rendering with a block is rendering with the block's value in place of each `yield`, in the same scope |
| Haml.LayoutWrapsContent | lib/serve.rb:75-82 | with a layout, whatever its pieces, the response is the layout rendered in the page's context with the page's output at each `yield`; for a layout without `render` calls, the layout's text around the page's output |
| Haml.LayoutPartialUsesPageContext | lib/serve.rb:77-80 | a layout asking for a partial gets exactly the partial resolved in the page's context, not in the layout's directory |
| Haml.LayoutPartialExample | lib/serve.rb:77-80 | serving `R/x/y.haml` with layout `R/_layout.haml` asking for `b` renders `R/x/_b.haml`; `R/_b.haml` is never looked at |
| Text.Strip | lib/serve.rb:162 | the result is the text with leading and trailing whitespace removed, and nothing else |
| Text.StripCharacterized | lib/serve.rb:177 | any string that is the text less only surrounding whitespace, and has none of its own at the ends, is the strip |
| Text.StripUnique | lib/serve.rb:177 | a text has exactly one stripped form |
| Text.StripOf | lib/serve.rb:162 | whitespace around an already trimmed string is all that `strip` removes |
| Text.StripIdempotent | lib/serve.rb:177 | stripping twice is stripping once |
| Text.LinesConcat | lib/serve.rb:161 | the lines of a text put together give back the text |
| Text.LinesShape | lib/serve.rb:161 | each line holds at most one line feed, at its end, and every line but the last ends with one |
| Text.LinesOfTwo | lib/serve.rb:161 | a two-line header yields its two lines, the first keeping its line feed |
| Text.JoinAppend | lib/serve.rb:168 | joining two non-empty lists one after the other is joining each, with the separator between |
| Email.Subject | lib/serve.rb:155 | a captured subject is non-empty, one line, and starts with a non-space |
| Email.SubjectIsLeftmostCapture | lib/serve.rb:155 | the subject is the capture of the leftmost match, and there is none exactly when no position of the message matches |
| Email.Title | lib/serve.rb:154-155 | the title is "E-mail" without a subject, and the subject followed by " E-mail" with one |
| Email.VerticalTabStartsSubject | lib/serve.rb:155 | `\s` does not match a vertical tab, so `Subject:` followed by one gets a title starting with it |
| Email.SubjectOnLaterLine | lib/serve.rb:155 | a `Subject:` line after a first line that is not one still gives the title, even when the whitespace after the label runs over line feeds |
| Email.SubjectOfHeader | lib/serve.rb:155 | a `Subject:` label in any case, then whitespace, then a subject running to the end of its line, gives that subject |
| Email.TitleOfSubjectLine | lib/serve.rb:154-155 | a message starting `Subject: s` gets the title `s E-mail` |
| Email.SplitHeadBody | lib/serve.rb:156 | without a blank line the whole text is head; otherwise head and body are split at the first blank line |
| Email.SplitAtBlankLine | lib/serve.rb:156 | a head without a blank line and any body come back apart |
| Email.KeyValueSplitsAtFirstColon | lib/serve.rb:162 | a header line splits at its first colon, each side stripped |
| Email.RowOfHeader | lib/serve.rb:162-163 | a header `key: value` with surrounding spaces is shown as a row with the bare key and value |
| Email.RowPerHeadLine | lib/serve.rb:156-168 | the page has the title first, one row per head line in order, and the body second to last, and those head lines put together are exactly the head |
| Email.Parse | lib/serve.rb:153-169 | the page fails exactly on the empty text |
| Email.BodyVerbatim | lib/serve.rb:156-168 | the page is the header rows, then the body as it was, then the closing tags, joined with line feeds |
| Email.TwoHeaderMessage | lib/serve.rb:153-169 | a message with a subject line, one more header and a body is shown with the subject title, both rows and the body |
| Email.ExamplePage | lib/serve.rb:153-169 | the page for `Subject: Hi`, `From: a@x` and body `Body text`, spelled out |
| Redirect.Process | lib/serve.rb:175-180 | the response is a 302 with an empty body, an HTML content type, and a location that is the file's text stripped |
| Redirect.LocationIsTarget | lib/serve.rb:177 | whitespace around a target in the file does not reach the location |
| Redirect.RedirectIdempotent | lib/serve.rb:177 | a file holding a location redirects to that same location |
| Redirect.RedirectExample | lib/serve.rb:175-180 | `  /new/path \n` redirects to `/new/path` with status 302 |
| Paths.Dirname | lib/serve.rb:116 | the directory of a path is the path without its last name |
| Paths.SegmentsOfJoin | lib/serve.rb:94 | joining two strings with '/' joins their paths |
| Paths.SegmentsAreNames | lib/serve.rb:121 | splitting at '/' yields non-empty names free of '/' |

## Left out

- WEBrick itself is not modelled: the servlet plumbing, `do_GET` and `do_POST`, the `Server` class, the request object, and the logger. `do_GET` re-raises `StandardError` and wraps any other exception as a 500; the model returns every failure as an error value instead.
- Handlers.HandlerFor: registration through `add_handler` is a global table in WEBrick. The model fixes the six extensions in one table, so re-registration and overriding are not modelled.
- Handlers.Serve: the 302 status comes from WEBrick when `HTTPStatus::Found` is raised. The model writes it into the response. The file read in `process` is the `text` parameter.
- RedCloth, BlueCloth, the Haml engine and Sass are parameters. What they produce from a text is not modelled, nor are the engine options (`:attr_wrapper`, `:filename`, `:style`).
- Haml.RenderPieces: the engine is idealised. A template's output is the plain concatenation of its pieces, and the result of a `render` call or a `yield` goes in unchanged. Haml's `=` strips trailing whitespace from what it inserts and, outside `:ugly` mode, re-indents multi-line results; that is not modelled, so Haml.LayoutWrapsContent holds for this idealised engine only.
- Haml.Parse: the page must lie strictly inside the working directory (`root < script`). The source slices the path without checking; a file outside the root is not modelled.
- Haml.RenderPartial: partials nested deeper than the fuel bound give `TooDeep`. This stands in for Ruby's stack overflow on self-including partials; a depth the fuel does not reach is not modelled.
- Haml.ContextRender: option values are strings. A `:partial` key whose value is `nil` or `false` is not modelled, and neither are the Ruby objects behind the other keys.
- Paths: `.` and `..` names are not normalised, and symbolic links are not followed.
- Text.Strip: whitespace is " \t\n\v\f\r". Ruby 1.8 also strips NUL at the end; that is not modelled.
- Email.Subject: `\s` is Ruby 1.8's space, tab, carriage return, line feed and form feed, and `/i` folds ASCII letters only. Ruby's Unicode case folding of other letters is not modelled.
- Email.Parse: Ruby 1.8's `String#each` is modelled, so lines keep their line feeds. On Ruby 1.9 and later, `String#each` does not exist; that behaviour is not modelled.
- The `$1` global and the `require` calls carry no behaviour of their own and are left out.

## Findings

| source | as written | input that shows it | evidently intended | confidence | as-written member | corrected member |
|---|---|---|---|---|---|---|
| lib/serve.rb:89-97 | `filename[root.size..-1]` loses the leading '/' when the working directory is `/`. `File.dirname` then climbs to `.`, never equals `/`, and the `until` loop never ends | working directory `/`, request `/a/b.haml`, no `_layout.haml` anywhere | climb to the working directory, look there, and stop with no layout | medium, not executed | LayoutAsWritten.RootSlashNeverEnds | Layout.FilesystemRootTerminates |

=== FILE: email.dfy ===
/** E-mail pages (`EmailHandler#parse`): a plain-text message becomes an HTML
    page whose title comes from the message's subject, with one row per
    header line and the body, unescaped, in a preformatted block. */
module Email {
  import opened Results
  import opened Text

  const NoSubjectTitle: string := "E-mail"

  /** What `Subject:` matches under the `i` flag, in lower case. */
  const SubjectLabel: string := "subject:"

  const BodyTag: string := "<body style=\"font-family: Arial; line-height: 1.2em; font-size: 90%; margin: 0; padding: 0\">"
  const HeadTag: string := "<div id=\"head\" style=\"background-color: #E9F2FA; padding: 1em\">"
  const PreTag: string := "</div><pre id=\"body\" style=\"font-size: 110%; padding: 1em\">"
  const CloseTag: string := "</pre></body></html>"

  function TitleTag(title: string): string {
    "<html><head><title>" + title + "</title></head>"
  }

  /** ASCII case folding, as the `i` flag applies it to "Subject:". */
  function Lower(c: char): char {
    if 'A' <= c <= 'Z' then (c as int + 32) as char else c
  }

  function LowerAll(s: string): (r: string)
    ensures |r| == |s| && forall i :: 0 <= i < |s| ==> r[i] == Lower(s[i])
  {
    seq(|s|, i requires 0 <= i < |s| => Lower(s[i]))
  }

  /** `^`: position `i` starts a line. */
  predicate LineStart(s: string, i: nat)
    requires i <= |s|
  {
    i == 0 || s[i - 1] == '\n'
  }

  /** "Subject:", in any case, starts at `i`. */
  predicate LabelAt(s: string, i: nat)
    requires i <= |s|
  {
    i + |SubjectLabel| <= |s| && LowerAll(s[i..i + |SubjectLabel|]) == SubjectLabel
  }

  /** What `\s` matches in a Ruby 1.8 regular expression: space, tab,
      carriage return, line feed and form feed, but not the vertical tab
      that `strip` also removes. */
  predicate RegexSpace(c: char) {
    c == ' ' || c == '\t' || c == '\r' || c == '\n' || c == '\U{000C}'
  }

  predicate AllRegexSpace(s: string) {
    forall i :: 0 <= i < |s| ==> RegexSpace(s[i])
  }

  /** `\s*` from `k`: the first position at or after `k` that is not whitespace. */
  function SkipSpace(s: string, k: nat): (j: nat)
    requires k <= |s|
    ensures k <= j <= |s|
    ensures forall m :: k <= m < j ==> RegexSpace(s[m])
    ensures j == |s| || !RegexSpace(s[j])
    decreases |s| - k
  {
    if k < |s| && RegexSpace(s[k]) then SkipSpace(s, k + 1) else k
  }

  /** `$` from `k`: the first line feed at or after `k`, or the end. */
  function LineEnd(s: string, k: nat): (e: nat)
    requires k <= |s|
    ensures k <= e <= |s|
    ensures forall m :: k <= m < e ==> s[m] != '\n'
    ensures e == |s| || s[e] == '\n'
    decreases |s| - k
  {
    if k < |s| && s[k] != '\n' then LineEnd(s, k + 1) else k
  }

  /** What `/^Subject:\s*(\S.*?)$/im` captures in a match starting at `i`:
      after the label and any whitespace (line feeds included), the rest of
      the line from the first non-space character on. */
  function CaptureAt(s: string, i: nat): (r: Option<string>)
    requires i <= |s|
    ensures r.Some? ==> |r.value| > 0 && !RegexSpace(r.value[0]) && '\n' !in r.value
  {
    if LineStart(s, i) && LabelAt(s, i) then
      var j := SkipSpace(s, i + |SubjectLabel|);
      if j < |s| then
        var e := LineEnd(s, j);
        assert s[j] != '\n';
        Some(s[j..e])
      else None
    else None
  }

  /** Where the leftmost match at or after `i` starts. */
  function FirstMatch(s: string, i: nat): (r: Option<nat>)
    requires i <= |s|
    ensures r.Some? ==> i <= r.value <= |s| && CaptureAt(s, r.value).Some?
    ensures r.Some? ==> forall m :: i <= m < r.value ==> CaptureAt(s, m).None?
    ensures r.None? ==> forall k :: i <= k <= |s| ==> CaptureAt(s, k).None?
    decreases |s| - i
  {
    if CaptureAt(s, i).Some? then Some(i)
    else if i == |s| then None
    else FirstMatch(s, i + 1)
  }

  /** The subject the page title is built from: the capture of the leftmost
      match, or None when no line of the message matches. */
  function Subject(s: string): (r: Option<string>)
    ensures r.Some? ==> |r.value| > 0 && !RegexSpace(r.value[0]) && '\n' !in r.value
  {
    match FirstMatch(s, 0)
    case Some(k) => CaptureAt(s, k)
    case None => None
  }

  /** The subject is the capture of the leftmost match, and there is none
      exactly when no position of the message matches. */
  lemma SubjectIsLeftmostCapture(s: string)
    ensures Subject(s).None? <==> forall k :: 0 <= k <= |s| ==> CaptureAt(s, k).None?
    ensures Subject(s).Some? ==>
      exists k :: 0 <= k <= |s| && Subject(s) == CaptureAt(s, k) && forall m :: 0 <= m < k ==> CaptureAt(s, m).None?
  {
  }

  /** The page title: "E-mail", prefixed by the subject when there is one. */
  function Title(s: string): (t: string)
    ensures Subject(s).None? ==> t == "E-mail"
    ensures Subject(s).Some? ==> t == Subject(s).value + " E-mail"
  {
    match Subject(s)
    case Some(subject) => subject + " " + NoSubjectTitle
    case None => NoSubjectTitle
  }

  /** Position `q` starts a blank line separator "\n\n". */
  predicate BlankLineAt(s: string, q: nat) {
    q + 1 < |s| && s[q] == '\n' && s[q + 1] == '\n'
  }

  function FirstBlankLine(s: string, i: nat): (r: Option<nat>)
    requires i <= |s|
    ensures r.Some? ==> i <= r.value && BlankLineAt(s, r.value) && forall q :: i <= q < r.value ==> !BlankLineAt(s, q)
    ensures r.None? ==> forall q :: i <= q < |s| ==> !BlankLineAt(s, q)
    decreases |s| - i
  {
    if i == |s| then None
    else if BlankLineAt(s, i) then Some(i)
    else FirstBlankLine(s, i + 1)
  }

  /** `string.split("\n\n", 2)` of a message: the head before the first
      "\n\n" and the body after it; without a "\n\n" the whole message is the
      head and the body is nil, which `join` prints as "". */
  function SplitHeadBody(s: string): (hb: (string, string))
    ensures (forall q :: 0 <= q < |s| ==> !BlankLineAt(s, q)) ==> hb == (s, "")
    ensures (exists q :: 0 <= q < |s| && BlankLineAt(s, q)) ==>
      s == hb.0 + "\n\n" + hb.1 && forall q :: 0 <= q < |hb.0| ==> !BlankLineAt(s, q)
  {
    match FirstBlankLine(s, 0)
    case None => (s, "")
    case Some(p) =>
      assert s == s[..p] + "\n\n" + s[p + 2..];
      (s[..p], s[p + 2..])
  }

  /** `line.split(":", 2).map { |a| a.strip }`: key and value of a header
      line, split at its first colon; a line without a colon is all key. */
  function KeyValue(line: string): (string, string) {
    match IndexOf(line, ':')
    case None => (Strip(line), "")
    case Some(p) => (Strip(line[..p]), Strip(line[p + 1..]))
  }

  /** The HTML row of one header line. */
  function Row(line: string): string {
    var (key, value) := KeyValue(line);
    "<div><strong>" + key + ":</strong> " + value + "</div>"
  }

  /** Everything the page holds before the body: the title, the opening tags,
      and one row for each line of the head, in order. */
  function HeadPieces(title: string, lines: seq<string>): (ps: seq<string>)
    ensures |ps| == |lines| + 3
    ensures ps[0] == TitleTag(title) && ps[1] == BodyTag && ps[2] == HeadTag
    ensures forall k :: 0 <= k < |lines| ==> ps[k + 3] == Row(lines[k])
  {
    [TitleTag(title), BodyTag, HeadTag] + seq(|lines|, k requires 0 <= k < |lines| => Row(lines[k]))
  }

  /** `nil.each` for an empty message, whose split has no head at all. */
  datatype EmailError = NoHead

  /** `EmailHandler#parse`. */
  function Parse(s: string): (r: Result<string, EmailError>)
    ensures r.Err? <==> s == ""
  {
    if s == "" then Err(NoHead)
    else
      var (head, body) := SplitHeadBody(s);
      Ok(Join(HeadPieces(Title(s), Lines(head)) + [PreTag, body, CloseTag], "\n"))
  }

  /** A header line is split at its first colon, both halves stripped. */
  lemma KeyValueSplitsAtFirstColon(key: string, value: string)
    requires ':' !in key
    ensures KeyValue(key + ":" + value) == (Strip(key), Strip(value))
  {
    var line := key + ":" + value;
    assert line[|key|] == ':';
    assert IndexOf(line, ':') == Some(|key|);
    assert line[..|key|] == key && line[|key| + 1..] == value;
  }

  /** A message whose first line is `Subject:` (any case), whitespace and a
      subject has that subject. */
  lemma SubjectOfHeader(prefix: string, space: string, subject: string, rest: string)
    requires LowerAll(prefix) == SubjectLabel
    requires AllRegexSpace(space)
    requires |subject| > 0 && !RegexSpace(subject[0]) && '\n' !in subject
    requires rest == "" || rest[0] == '\n'
    ensures Subject(prefix + space + subject + rest) == Some(subject)
  {
    var s := prefix + space + subject + rest;
    var j := |prefix| + |space|;
    var e := j + |subject|;
    assert s[0..|SubjectLabel|] == prefix;
    assert LabelAt(s, 0);
    assert s[j] == subject[0];
    assert SkipSpace(s, |SubjectLabel|) == j;
    assert LineEnd(s, j) == e;
    assert s[j..e] == subject;
    assert CaptureAt(s, 0) == Some(subject);
  }

  /** A line that does not start with the label holds no match, whatever
      follows it. */
  lemma NoMatchOnFirstLine(s: string, first: string)
    requires '\n' !in first && |first| < |s| && s[..|first| + 1] == first + "\n"
    requires !(|first| >= |SubjectLabel| && LowerAll(first[..|SubjectLabel|]) == SubjectLabel)
    ensures forall m :: 0 <= m <= |first| ==> CaptureAt(s, m).None?
  {
    assert !LabelAt(s, 0) by {
      if |first| >= |SubjectLabel| {
        assert s[0..|SubjectLabel|] == first[..|SubjectLabel|];
      } else if |SubjectLabel| <= |s| {
        assert s[|first|] == '\n';
        assert LowerAll(s[0..|SubjectLabel|])[|first|] == '\n';
      }
    }
    forall m | 0 < m <= |first|
      ensures !LineStart(s, m)
    {
      assert s[m - 1] == first[m - 1];
    }
  }

  /** `\s` does not match a vertical tab, so one after the label starts the
      subject and stays in the title. */
  lemma VerticalTabStartsSubject()
    ensures Title("Subject:\U{000B}Hi") == "\U{000B}Hi E-mail"
  {
    VerticalTabText();
    SubjectTagFolds("Subject:");
    SubjectOfHeader("Subject:", "", "\U{000B}Hi", "");
  }

  /** The message and title of the vertical tab example, spelled out. */
  lemma VerticalTabText()
    ensures "Subject:" + "" + "\U{000B}Hi" + "" == "Subject:\U{000B}Hi"
    ensures "\U{000B}Hi" + " " + NoSubjectTitle == "\U{000B}Hi E-mail"
    ensures AllRegexSpace("") && !RegexSpace("\U{000B}Hi"[0])
  {
  }

  /** The leftmost match decides the subject. */
  lemma LeftmostCapture(s: string, i: nat, subject: string)
    requires i <= |s| && CaptureAt(s, i) == Some(subject)
    requires forall m :: 0 <= m < i ==> CaptureAt(s, m).None?
    ensures Subject(s) == Some(subject)
  {
    SubjectIsLeftmostCapture(s);
    assert Subject(s).Some?;
    var k :| 0 <= k <= |s| && Subject(s) == CaptureAt(s, k) && forall m :: 0 <= m < k ==> CaptureAt(s, m).None?;
    assert k == i;

  }

  /** A line `Subject:` (any case), whitespace and a subject, starting at a
      line start `i`, captures that subject there. */
  lemma CaptureOfSubjectLine(s: string, before: string, prefix: string, space: string, subject: string, rest: string)
    requires LowerAll(prefix) == SubjectLabel
    requires AllRegexSpace(space)
    requires |subject| > 0 && !RegexSpace(subject[0]) && '\n' !in subject
    requires rest == "" || rest[0] == '\n'
    requires s == before + prefix + space + subject + rest && LineStart(s, |before|)
    ensures CaptureAt(s, |before|) == Some(subject)
  {
    var i := |before|;
    var j := i + |prefix| + |space|;
    var e := j + |subject|;
    assert s[i..i + |SubjectLabel|] == prefix;
    assert LabelAt(s, i);
    assert s[j] == subject[0];
    forall m | i + |SubjectLabel| <= m < j
      ensures RegexSpace(s[m])
    {
      assert s[m] == space[m - i - |SubjectLabel|];
    }
    assert SkipSpace(s, i + |SubjectLabel|) == j;
    forall m | j <= m < e
      ensures s[m] != '\n'
    {
      assert s[m] == subject[m - j];
    }
    if rest == "" {
      assert e == |s|;
    } else {
      assert s[e] == rest[0];
    }
    assert LineEnd(s, j) == e;
    assert s[j..e] == subject;
  }

  /** The subject may sit on a later line, and the whitespace after the
      label may run over line feeds: after a first line that does not start
      with the label, a `Subject:` line still gives the title. */
  lemma SubjectOnLaterLine(first: string, prefix: string, space: string, subject: string, rest: string)
    requires '\n' !in first && !(|first| >= |SubjectLabel| && LowerAll(first[..|SubjectLabel|]) == SubjectLabel)
    requires LowerAll(prefix) == SubjectLabel
    requires AllRegexSpace(space)
    requires |subject| > 0 && !RegexSpace(subject[0]) && '\n' !in subject
    requires rest == "" || rest[0] == '\n'
    ensures Title(first + "\n" + prefix + space + subject + rest) == subject + " " + NoSubjectTitle
  {
    var before := first + "\n";
    var s := before + prefix + space + subject + rest;
    assert s == first + "\n" + prefix + space + subject + rest;
    assert s[..|first| + 1] == before && s[|first|] == '\n';
    NoMatchOnFirstLine(s, first);
    CaptureOfSubjectLine(s, before, prefix, space, subject, rest);
    LeftmostCapture(s, |before|, subject);
  }

  /** No "\n\n" inside `h`, and `h` does not end with a line feed. */
  predicate NoBlankLine(h: string) {
    && (forall q :: 0 <= q < |h| - 1 ==> !(h[q] == '\n' && h[q + 1] == '\n'))
    && (|h| == 0 || h[|h| - 1] != '\n')
  }

  /** A message splits at its first blank line: head before, body after. */
  lemma SplitAtBlankLine(head: string, body: string)
    requires NoBlankLine(head)
    ensures SplitHeadBody(head + "\n\n" + body) == (head, body)
  {
    var s := head + "\n\n" + body;
    assert BlankLineAt(s, |head|);
    var hb := SplitHeadBody(s);
    var n := |hb.0|;
    assert n == |head|;
    assert s[..n] == head && s[n + 2..] == body;
  }

  /** The body is copied into the page as it is, between the `<pre>` tag
      and the closing tags. */
  lemma BodyVerbatim(s: string)
    requires s != ""
    ensures Parse(s) == Ok(Join(HeadPieces(Title(s), Lines(SplitHeadBody(s).0)), "\n")
                           + "\n" + PreTag + "\n" + SplitHeadBody(s).1 + "\n" + CloseTag)
  {
    var hb := SplitHeadBody(s);
    var front := HeadPieces(Title(s), Lines(hb.0));
    assert Parse(s) == Ok(Join(front + [PreTag, hb.1, CloseTag], "\n"));
    JoinThree(front, PreTag, hb.1, CloseTag, "\n");
  }

  /** The page holds one row per line of the head, in order, after the title
      and before the body, and those lines put together are the head: no
      header text is lost or shown twice. */
  lemma RowPerHeadLine(s: string)
    requires s != ""
    ensures var hb := SplitHeadBody(s);
      && Concat(Lines(hb.0)) == hb.0
      && (forall k :: 0 <= k < |Lines(hb.0)| ==> IsLine(Lines(hb.0)[k]))
      && exists ps: seq<string> ::
           && Parse(s) == Ok(Join(ps, "\n"))
           && PageLayout(ps, Title(s), Lines(hb.0), hb.1)
  {
    var hb := SplitHeadBody(s);
    LinesConcat(hb.0);
    LinesShape(hb.0);
    ParsePieces(s);
    PageWitness(Parse(s).value, Title(s), Lines(hb.0), hb.1);
  }

  lemma PageWitness(page: string, title: string, lines: seq<string>, body: string)
    requires page == Join(HeadPieces(title, lines) + [PreTag, body, CloseTag], "\n")
    ensures exists ps: seq<string> :: page == Join(ps, "\n") && PageLayout(ps, title, lines, body)
  {
    var ps := HeadPieces(title, lines) + [PreTag, body, CloseTag];
    PiecesLayout(title, lines, body);
    assert page == Join(ps, "\n") && PageLayout(ps, title, lines, body);
  }

  /** How `Parse` lays out the page of a non-empty message. */
  lemma ParsePieces(s: string)
    requires s != ""
    ensures var hb := SplitHeadBody(s);
      Parse(s) == Ok(Join(HeadPieces(Title(s), Lines(hb.0)) + [PreTag, hb.1, CloseTag], "\n"))
  {
  }

  /** The pieces of a page: the title first, one row per head line from the
      fourth piece on, and the body second to last. */
  predicate PageLayout(ps: seq<string>, title: string, lines: seq<string>, body: string) {
    && |ps| == |lines| + 6
    && ps[0] == TitleTag(title) && ps[|ps| - 2] == body
    && forall k :: 0 <= k < |lines| ==> ps[k + 3] == Row(lines[k])
  }

  lemma PiecesLayout(title: string, lines: seq<string>, body: string)
    ensures PageLayout(HeadPieces(title, lines) + [PreTag, body, CloseTag], title, lines, body)
  {
  }

  /** "Subject:" as the source writes it folds to the label. */
  lemma SubjectTagSpelled(tag: string)
    requires tag == "Subject:"
    ensures LowerAll(tag) == SubjectLabel
    ensures tag + " " == "Subject: " && AllRegexSpace(" ")
    ensures NoSubjectTitle == "E-mail" && " " + NoSubjectTitle == " E-mail"
  {
    SubjectTagFolds(tag);
  }

  lemma SubjectTagFolds(tag: string)
    requires tag == "Subject:"
    ensures LowerAll(tag) == SubjectLabel
  {
    assert Lower('S') == 's';
  }

  /** A two-line head without a blank line in it. */
  lemma NoBlankLineOfTwo(a: string, c: string)
    requires '\n' !in a && '\n' !in c && |c| > 0
    ensures NoBlankLine(a + "\n" + c)
  {
    var h := a + "\n" + c;
    forall q | 0 <= q < |h| - 1
      ensures !(h[q] == '\n' && h[q + 1] == '\n')
    {
      if q < |a| {
        assert h[q] == a[q];
      } else {
        assert h[q + 1] == c[q - |a|];
      }
    }
    assert h[|h| - 1] == c[|c| - 1];
  }

  /** A message whose first line is "Subject: " and a subject is titled
      after that subject. */
  lemma TitleOfSubjectLine(s: string, subject: string, rest: string)
    requires |subject| > 0 && !RegexSpace(subject[0]) && '\n' !in subject
    requires rest == "" || rest[0] == '\n'
    requires s == "Subject: " + subject + rest
    ensures Title(s) == subject + " E-mail"
  {
    var tag := "Subject:";
    SubjectTagSpelled(tag);
    assert s == tag + " " + subject + rest;
    SubjectOfHeader(tag, " ", subject, rest);
  }

  /** The row of a header line `key:value`, whitespace around either half
      dropped. */
  lemma RowOfHeader(line: string, key: string, pre: string, value: string, post: string)
    requires ':' !in key && Trimmed(key) && Trimmed(value)
    requires AllSpace(pre) && AllSpace(post)
    requires line == key + ":" + pre + value + post
    ensures Row(line) == "<div><strong>" + key + ":</strong> " + value + "</div>"
  {
    KeyValueOfHeader(line, key, pre, value, post);
    RowOfKeyValue(line, key, value);
  }

  lemma KeyValueOfHeader(line: string, key: string, pre: string, value: string, post: string)
    requires ':' !in key && Trimmed(key) && Trimmed(value)
    requires AllSpace(pre) && AllSpace(post)
    requires line == key + ":" + pre + value + post
    ensures KeyValue(line) == (key, value)
  {
    var rest := pre + value + post;
    assert line == key + ":" + rest;
    KeyValueSplitsAtFirstColon(key, rest);
    StripTrimmed(key);
    StripOf(pre, value, post);
  }

  lemma RowOfKeyValue(line: string, key: string, value: string)
    requires KeyValue(line) == (key, value)
    ensures Row(line) == "<div><strong>" + key + ":</strong> " + value + "</div>"
  {
  }

  /** A message with two head lines splits after the second. */
  lemma SplitTwoLineHead(s: string, first: string, second: string, body: string)
    requires '\n' !in first && '\n' !in second && |second| > 0
    requires s == first + "\n" + second + "\n\n" + body
    ensures SplitHeadBody(s) == (first + "\n" + second, body)
  {
    NoBlankLineOfTwo(first, second);
    SplitAtBlankLine(first + "\n" + second, body);
  }

  /** The pieces of a page whose head has two lines. */
  lemma TwoRowPieces(title: string, body: string, l1: string, l2: string)
    ensures HeadPieces(title, [l1, l2]) + [PreTag, body, CloseTag]
         == [TitleTag(title), BodyTag, HeadTag, Row(l1), Row(l2), PreTag, body, CloseTag]
  {
    assert HeadPieces(title, [l1, l2]) == [TitleTag(title), BodyTag, HeadTag, Row(l1), Row(l2)];
  }

  /** The row of the subject line. */
  lemma SubjectRow(subject: string)
    requires |subject| > 0 && Trimmed(subject) && '\n' !in subject
    ensures Row("Subject: " + subject + "\n") == "<div><strong>Subject:</strong> " + subject + "</div>"
  {
    var line := "Subject: " + subject + "\n";
    assert "Subject" + ":" + " " == "Subject: ";
    assert line == "Subject" + ":" + " " + subject + "\n";
    assert "<div><strong>" + "Subject" + ":</strong> " == "<div><strong>Subject:</strong> ";
    assert AllSpace(" ") && AllSpace("\n");
    RowOfHeader(line, "Subject", " ", subject, "\n");
  }

  /** How the page of a message with two head lines is laid out. */
  lemma PageOfTwoLineHead(s: string, title: string, head: string, body: string, l1: string, l2: string)
    ensures s != "" && Title(s) == title && SplitHeadBody(s) == (head, body) && Lines(head) == [l1, l2] ==>
      Parse(s) == Ok(Join([TitleTag(title), BodyTag, HeadTag, Row(l1), Row(l2), PreTag, body, CloseTag], "\n"))
  {
    if s != "" && Title(s) == title && SplitHeadBody(s) == (head, body) && Lines(head) == [l1, l2] {
      TwoRowPieces(title, body, l1, l2);
      assert Parse(s) == Ok(Join(HeadPieces(title, Lines(head)) + [PreTag, body, CloseTag], "\n"));
    }
  }

  /** The page of a message with a subject line and one more head line. */
  lemma TwoLineHeadPage(s: string, first: string, subject: string, second: string, body: string)
    requires |subject| > 0 && Trimmed(subject) && '\n' !in subject
    requires '\n' !in second && |second| > 0
    requires first == "Subject: " + subject
    requires s == first + "\n" + second + "\n\n" + body
    ensures Parse(s) == Ok(Join([TitleTag(subject + " E-mail"), BodyTag, HeadTag,
      Row(first + "\n"), Row(second), PreTag, body, CloseTag], "\n"))
  {
    var head := first + "\n" + second;
    var rest := "\n" + second + "\n\n" + body;
    assert s == first + rest;
    TrimmedSubjectTitle(s, subject, rest);
    assert SplitHeadBody(s) == (head, body) by {
      SplitTwoLineHead(s, first, second, body);
    }
    assert Lines(head) == [first + "\n", second] by {
      LinesOfTwo(first, second);
    }
    PageOfTwoLineHead(s, subject + " E-mail", head, body, first + "\n", second);
  }

  /** The title of a page whose first line is a trimmed subject line. */
  lemma TrimmedSubjectTitle(s: string, subject: string, rest: string)
    requires |subject| > 0 && Trimmed(subject) && '\n' !in subject
    requires rest == "" || rest[0] == '\n'
    requires s == "Subject: " + subject + rest
    ensures Title(s) == subject + " E-mail"
  {
    TrimmedStartsWord(subject);
    TitleOfSubjectLine(s, subject, rest);
  }

  /** A trimmed subject does not start with what `\s` matches. */
  lemma TrimmedStartsWord(subject: string)
    requires |subject| > 0 && Trimmed(subject)
    ensures !RegexSpace(subject[0])
  {
  }

  /** The page of a message with a subject line, one more header line
      `key: value` and a body: titled after the subject, one row per header
      line, the body copied as it is. */
  lemma TwoHeaderMessage(subject: string, key: string, value: string, body: string)
    requires |subject| > 0 && Trimmed(subject) && '\n' !in subject
    requires |key| > 0 && Trimmed(key) && ':' !in key && '\n' !in key
    requires Trimmed(value) && '\n' !in value
    ensures Parse("Subject: " + subject + "\n" + key + ": " + value + "\n\n" + body) == Ok(Join([
      TitleTag(subject + " E-mail"), BodyTag, HeadTag,
      "<div><strong>Subject:</strong> " + subject + "</div>",
      "<div><strong>" + key + ":</strong> " + value + "</div>",
      PreTag, body, CloseTag], "\n"))
  {
    var first := "Subject: " + subject;
    var second := key + ": " + value;
    var s := first + "\n" + second + "\n\n" + body;
    assert s == "Subject: " + subject + "\n" + key + ": " + value + "\n\n" + body;
    assert second == key + ":" + " " + value + "";
    assert AllSpace(" ") && AllSpace("");
    TwoLineHeadPage(s, first, subject, second, body);
    RowOfHeader(second, key, " ", value, "");
    SubjectRow(subject);
  }

  /** The example's pieces, spelled out. */
  lemma ExampleText()
    ensures "Subject: " + "Hi" + "\n" + "From" + ": " + "a@x" + "\n\n" + "Body text"
         == "Subject: Hi\nFrom: a@x\n\nBody text"
  {
  }

  lemma ExampleSubjectRow()
    ensures "Hi" + " E-mail" == "Hi E-mail"
    ensures "<div><strong>Subject:</strong> " + "Hi" + "</div>" == "<div><strong>Subject:</strong> Hi</div>"
  {
  }

  lemma ExampleFromRow()
    ensures "<div><strong>" + "From" + ":</strong> " + "a@x" + "</div>" == "<div><strong>From:</strong> a@x</div>"
  {
    assert "<div><strong>" + "From" == "<div><strong>From";
    assert ":</strong> " + "a@x" + "</div>" == ":</strong> a@x</div>";
  }

  lemma ExampleTrimmed()
    ensures Trimmed("Hi") && Trimmed("From") && Trimmed("a@x")
  {
  }

  /** A two-line message: "Hi E-mail" as title, rows for the subject and
      the sender, and the body after them. */
  lemma ExamplePage()
    ensures Parse("Subject: Hi\nFrom: a@x\n\nBody text") == Ok(Join([
      TitleTag("Hi E-mail"), BodyTag, HeadTag,
      "<div><strong>Subject:</strong> Hi</div>",
      "<div><strong>From:</strong> a@x</div>",
      PreTag, "Body text", CloseTag], "\n"))
  {
    ExampleText();
    ExampleSubjectRow();
    ExampleFromRow();
    ExampleTrimmed();
    TwoHeaderMessage("Hi", "From", "a@x", "Body text");
  }
}

=== FILE: haml.dfy ===
/** Haml pages (`HamlHandler#parse` and `HamlHandler::Context`). The content
    file is compiled and rendered; when `find_layout` finds a layout, the page
    is rendered in a `Context` scope and the layout is rendered in the same
    scope with the page's output as the value it yields. Templates rendered in
    a `Context` may include partials with `render :partial => token`.

    The Haml engine itself is not modelled: the caller supplies a compiler
    that turns template text into the pieces a template is made of (literal
    output, a `render` call with its options, a `yield`) or a syntax error. */
module Haml {
  import opened Results
  import opened Paths
  import Layout

  /** Keys of the options hash a template hands to `render`. */
  datatype OptionKey = PartialKey | OtherKey(name: string)

  type RenderOptions = map<OptionKey, string>

  /** What a compiled template does when it is rendered, piece by piece. */
  datatype Piece =
    | Text(text: string)              // output written as it is
    | Render(options: RenderOptions)  // `render options` on the scope
    | Yield                           // the value of the block given to the render

  /** The Haml engine: template text to pieces, or the message of a syntax error. */
  type Compiler = string -> Result<seq<Piece>, string>

  /** `HamlHandler::Context`: the content root and the content file being
      served. The engine options it also carries affect only the engine and
      are left out. */
  datatype Context = Context(root: Path, scriptFilename: Path)

  /** The object a template is rendered against: a plain object (no `render`
      method) or a `Context`. */
  datatype Scope = PlainScope | ContextScope(ctx: Context)

  datatype RenderError =
    | UnsupportedOptions(options: RenderOptions)  // "render options not supported ..."
    | MissingPartial(path: Path)                  // "File does not exist ..."
    | NoRenderMethod                              // `render` called on a plain object
    | NoBlockGiven                                // `yield` without a block
    | SyntaxError(message: string)                // the engine rejected a template
    | TooDeep                                     // partials nested beyond the fuel bound

  /** `partial =~ %r{^/}`: some line of the token starts with '/'. */
  predicate IsRootRelative(token: string) {
    exists i :: 0 <= i < |token| && token[i] == '/' && (i == 0 || token[i - 1] == '\n')
  }

  /** The name of the file a partial token refers to. */
  function PartialFileName(token: string): string {
    "_" + token + ".haml"
  }

  /** A partial's file name, or the first directory of one, starts with '_'. */
  predicate HasUnderscore(name: string) {
    |name| > 0 && name[0] == '_'
  }

  /** `render_partial`'s choice of file: a root-relative token loses its first
      character and is looked up under the content root, any other token in
      the directory of the context's content file. */
  function ResolvePartial(ctx: Context, token: string): (p: Path)
    ensures IsRootRelative(token) ==> ctx.root < p && HasUnderscore(p[|ctx.root|])
    ensures !IsRootRelative(token) ==> Dirname(ctx.scriptFilename) < p && HasUnderscore(p[|Dirname(ctx.scriptFilename)|])
    ensures EndsWith(p[|p| - 1], ".haml")
  {
    var name := if IsRootRelative(token) then token[1..] else token;
    var base := if IsRootRelative(token) then ctx.root else Dirname(ctx.scriptFilename);
    var file := PartialFileName(name);
    SegmentsLast("_" + name, ".haml");
    SegmentsFirst(file);
    base + Segments(file)
  }

  /** True when `p` is a file a partial of `ctx` can resolve to. */
  predicate InContext(ctx: Context, p: Path) {
    ctx.root < p || Dirname(ctx.scriptFilename) < p
  }

  /** What every render error tells about the render it came from: a missing
      partial is absent and was resolved against the one context of the
      scope, unsupported options never hold `:partial`, and only a plain
      object lacks `render`. */
  ghost predicate ErrorInvariant(scope: Scope, fs: FileSystem, e: RenderError) {
    && (e.UnsupportedOptions? ==> PartialKey !in e.options)
    && (e.MissingPartial? ==> e.path !in fs && scope.ContextScope? && InContext(scope.ctx, e.path)
                              && exists t :: e.path == ResolvePartial(scope.ctx, t))
    && (e.NoRenderMethod? ==> scope.PlainScope?)
  }

  function CompileTemplate(compile: Compiler, text: string): (r: Result<seq<Piece>, RenderError>)
    ensures r.Err? ==> r.error.SyntaxError?
  {
    match compile(text)
    case Ok(ps) => Ok(ps)
    case Err(message) => Err(SyntaxError(message))
  }

  /** Rendering compiled pieces against `scope`, with `block` as the value of
      `yield`; the output is the concatenation of the pieces' outputs and the
      first failing piece stops the render. */
  function RenderPieces(scope: Scope, fs: FileSystem, compile: Compiler, ps: seq<Piece>,
                        block: Option<string>, fuel: nat): (r: Result<string, RenderError>)
    ensures r.Err? ==> ErrorInvariant(scope, fs, r.error)
    decreases fuel, |ps| + 2
  {
    if |ps| == 0 then Ok("")
    else
      var first :- match ps[0]
        case Text(t) => Ok(t)
        case Yield => if block.Some? then Ok(block.value) else Err(NoBlockGiven)
        case Render(options) =>
          match scope
          case PlainScope => Err(NoRenderMethod)
          case ContextScope(ctx) => ContextRender(ctx, fs, compile, options, fuel);
      var rest :- RenderPieces(scope, fs, compile, ps[1..], block, fuel);
      Ok(first + rest)
  }

  /** `Context#render`: only `:partial` is supported; without it the call
      fails naming the options it was given, and with it every other key is
      ignored. */
  function ContextRender(ctx: Context, fs: FileSystem, compile: Compiler, options: RenderOptions,
                         fuel: nat): (r: Result<string, RenderError>)
    ensures r.Err? ==> ErrorInvariant(ContextScope(ctx), fs, r.error)
    ensures PartialKey !in options <==> r == Err(UnsupportedOptions(options))
    decreases fuel, 1
  {
    if PartialKey in options then RenderPartial(ctx, fs, compile, options[PartialKey], fuel)
    else Err(UnsupportedOptions(options))
  }

  /** `Context#render_partial`: the partial's template is rendered in the
      same context, so partials it asks for in turn are resolved against the
      content file of the context too. A missing file is an error naming it. */
  function RenderPartial(ctx: Context, fs: FileSystem, compile: Compiler, token: string,
                         fuel: nat): (r: Result<string, RenderError>)
    ensures r.Err? ==> ErrorInvariant(ContextScope(ctx), fs, r.error)
    ensures r.Ok? ==> ResolvePartial(ctx, token) in fs
    ensures ResolvePartial(ctx, token) !in fs ==> r.Err? && r.error.MissingPartial? && r.error.path == ResolvePartial(ctx, token)
    decreases fuel, 0
  {
    var path := ResolvePartial(ctx, token);
    if path !in fs then Err(MissingPartial(path))
    else if fuel == 0 then Err(TooDeep)
    else
      var ps :- CompileTemplate(compile, fs[path]);
      RenderPieces(ContextScope(ctx), fs, compile, ps, None, fuel - 1)
  }

  /** `HamlHandler#parse` for content file `script` holding `text`, with
      `root` as the working directory. `fuel` bounds how deeply partials
      may nest. */
  function Parse(fs: FileSystem, root: Path, script: Path, text: string, compile: Compiler,
                 fuel: nat): (r: Result<string, RenderError>)
    requires root < script
    ensures r.Err? && r.error.MissingPartial? ==>
      r.error.path !in fs && InContext(Context(root, script), r.error.path) &&
      exists t :: r.error.path == ResolvePartial(Context(root, script), t)
    ensures r.Err? && r.error.NoRenderMethod? ==> Layout.FindLayout(fs, root, script).None?
    ensures r.Err? && r.error.UnsupportedOptions? ==> PartialKey !in r.error.options
  {
    var ps :- CompileTemplate(compile, text);
    match Layout.FindLayout(fs, root, script)
    case None => RenderPieces(PlainScope, fs, compile, ps, None, fuel)
    case Some(layout) =>
      var scope := ContextScope(Context(root, script));
      var rendered :- RenderPieces(scope, fs, compile, ps, None, fuel);
      var layoutPieces :- CompileTemplate(compile, fs[layout]);
      RenderPieces(scope, fs, compile, layoutPieces, Some(rendered), fuel)
  }

  /** For a token on a single line, `%r{^/}` asks only whether the token's
      first character is '/'. */
  lemma RootRelativeFirstChar(token: string)
    requires '\n' !in token
    ensures IsRootRelative(token) <==> |token| > 0 && token[0] == '/'
  {
    if IsRootRelative(token) {
      var i :| 0 <= i < |token| && token[i] == '/' && (i == 0 || token[i - 1] == '\n');
    }
  }

  /** A plain name is looked up as `_name.haml` beside the content file. */
  lemma ResolveSiblingName(ctx: Context, name: string)
    requires '/' !in name && '\n' !in name
    ensures ResolvePartial(ctx, name) == Dirname(ctx.scriptFilename) + ["_" + name + ".haml"]
  {
    RootRelativeFirstChar(name);
    SegmentsOfSegment(PartialFileName(name));
  }

  /** A name after '/' is looked up as `_name.haml` in the content root,
      wherever the content file is. */
  lemma ResolveRootName(ctx: Context, name: string)
    requires '/' !in name && '\n' !in name
    ensures ResolvePartial(ctx, "/" + name) == ctx.root + ["_" + name + ".haml"]
  {
    RootRelativeFirstChar("/" + name);
    assert ("/" + name)[1..] == name;
    SegmentsOfSegment(PartialFileName(name));
  }

  /** The underscore goes in front of the whole token, not its last name:
      `dir/name` is looked up as `_dir/name.haml`. */
  lemma UnderscoreOnWholeToken(ctx: Context, dir: string, name: string)
    requires '/' !in dir && '\n' !in dir && '/' !in name && '\n' !in name && |dir| > 0 && |name| > 0
    ensures ResolvePartial(ctx, dir + "/" + name) == Dirname(ctx.scriptFilename) + ["_" + dir, name + ".haml"]
  {
    var token := dir + "/" + name;
    assert '\n' !in token by {
      forall i | 0 <= i < |token|
        ensures token[i] != '\n'
      {
        if i < |dir| { assert token[i] == dir[i]; }
        else if i > |dir| { assert token[i] == name[i - |dir| - 1]; }
      }
    }
    RootRelativeFirstChar(token);
    assert token[0] == dir[0];
    assert PartialFileName(token) == ("_" + dir) + "/" + (name + ".haml");
    SegmentsOfJoin("_" + dir, name + ".haml");
    SegmentsOfSegment("_" + dir);
    SegmentsOfSegment(name + ".haml");
  }

  /** The two lookups for a requester at `R/x/y.haml`: `foo` is `R/x/_foo.haml`
      and `/foo` is `R/_foo.haml`. */
  lemma PartialExamples(root: Path)
    ensures ResolvePartial(Context(root, root + ["x", "y.haml"]), "foo") == root + ["x", "_foo.haml"]
    ensures ResolvePartial(Context(root, root + ["x", "y.haml"]), "/foo") == root + ["_foo.haml"]
  {
    ExampleNames();
    var ctx := Context(root, root + ["x", "y.haml"]);
    assert Dirname(ctx.scriptFilename) == root + ["x"];
    assert root + ["x"] + ["_foo.haml"] == root + ["x", "_foo.haml"];
    ResolveSiblingName(ctx, "foo");
    ResolveRootName(ctx, "foo");
  }

  /** The names of the examples, spelled out. */
  lemma ExampleNames()
    ensures "_" + "foo" + ".haml" == "_foo.haml" && "/" + "foo" == "/foo"
    ensures "sub" + "/" + "a" == "sub/a" && "_" + "sub" == "_sub" && "a" + ".haml" == "a.haml"
    ensures "_" + "b" + ".haml" == "_b.haml"
  {
  }

  /** With `:partial` present, `Context#render` ignores every other key. */
  lemma RenderIgnoresOtherKeys(ctx: Context, fs: FileSystem, compile: Compiler, options: RenderOptions, fuel: nat)
    requires PartialKey in options
    ensures ContextRender(ctx, fs, compile, options, fuel) ==
            ContextRender(ctx, fs, compile, map[PartialKey := options[PartialKey]], fuel)
  {
  }

  lemma RenderOneText(scope: Scope, fs: FileSystem, compile: Compiler, t: string, block: Option<string>, fuel: nat)
    ensures RenderPieces(scope, fs, compile, [Text(t)], block, fuel) == Ok(t)
  {
    assert [Text(t)][1..] == [];
    assert t + "" == t;
  }

  lemma RenderOneCall(ctx: Context, fs: FileSystem, compile: Compiler, options: RenderOptions, block: Option<string>, fuel: nat)
    requires ContextRender(ctx, fs, compile, options, fuel).Ok?
    ensures RenderPieces(ContextScope(ctx), fs, compile, [Render(options)], block, fuel) ==
            ContextRender(ctx, fs, compile, options, fuel)
  {
    var out := ContextRender(ctx, fs, compile, options, fuel).value;
    assert [Render(options)][1..] == [];
    assert out + "" == out;
  }

  /** A template engine for the example below: template "A" asks for the
      partial `b`; any other template prints its own text. */
  function ExampleCompiler(t: string): Result<seq<Piece>, string> {
    if t == "A" then Ok([Render(map[PartialKey := "b"])]) else Ok([Text(t)])
  }

  const ExampleContext := Context(["srv"], ["srv", "x", "y.haml"])

  lemma ExampleLookups()
    ensures ResolvePartial(ExampleContext, "sub/a") == ["srv", "x", "_sub", "a.haml"]
    ensures ResolvePartial(ExampleContext, "b") == ["srv", "x", "_b.haml"]
  {
    ExampleNames();
    var ctx := ExampleContext;
    assert Dirname(ctx.scriptFilename) == ["srv", "x"];
    UnderscoreOnWholeToken(ctx, "sub", "a");
    ResolveSiblingName(ctx, "b");
  }

  /** Partials asked for by a partial are resolved against the content file,
      not against the partial asking: serving `R/x/y.haml`, the partial
      `sub/a` (file `R/x/_sub/a.haml`) asking for `b` gets `R/x/_b.haml`,
      while `R/x/_sub/_b.haml` is never looked at. */
  lemma NestedPartialUsesContentDirectory(fs: FileSystem)
    requires fs == map[["srv", "x", "_sub", "a.haml"] := "A", ["srv", "x", "_b.haml"] := "B"]
    ensures RenderPartial(ExampleContext, fs, ExampleCompiler, "sub/a", 2) == Ok("B")
    ensures ["srv", "x", "_sub", "_b.haml"] !in fs
  {
    var ctx := ExampleContext;
    ExampleLookups();
    RenderOneText(ContextScope(ctx), fs, ExampleCompiler, "B", None, 0);
    assert RenderPartial(ctx, fs, ExampleCompiler, "b", 1) == Ok("B");
    var options := map[PartialKey := "b"];
    assert ContextRender(ctx, fs, ExampleCompiler, options, 1) == Ok("B");
    RenderOneCall(ctx, fs, ExampleCompiler, options, None, 1);
  }

  /** A partial whose template is one `render` call hands that call to the
      same context, whatever file the partial came from: the partial it asks
      for is resolved against the content file being served. */
  lemma PartialRendersInSameContext(ctx: Context, fs: FileSystem, compile: Compiler, token: string,
                                    options: RenderOptions, fuel: nat)
    requires ResolvePartial(ctx, token) in fs && fuel > 0
    requires compile(fs[ResolvePartial(ctx, token)]) == Ok([Render(options)])
    ensures RenderPartial(ctx, fs, compile, token, fuel) == ContextRender(ctx, fs, compile, options, fuel - 1)
    ensures PartialKey in options ==>
      RenderPartial(ctx, fs, compile, token, fuel) == RenderPartial(ctx, fs, compile, options[PartialKey], fuel - 1)
  {
    if ContextRender(ctx, fs, compile, options, fuel - 1).Ok? {
      RenderOneCall(ctx, fs, compile, options, None, fuel - 1);
    }
  }

  /** Without a layout the page is rendered on its own. */
  lemma NoLayoutRendersAlone(fs: FileSystem, root: Path, script: Path, text: string, compile: Compiler, fuel: nat)
    requires root < script && Layout.FindLayout(fs, root, script).None?
    ensures compile(text).Err? ==> Parse(fs, root, script, text, compile, fuel) == Err(SyntaxError(compile(text).error))
    ensures compile(text).Ok? ==>
      Parse(fs, root, script, text, compile, fuel) == RenderPieces(PlainScope, fs, compile, compile(text).value, None, fuel)
  {
  }

  /** Rendering on a plain object stops with NoRenderMethod at the first
      `render` call when only literal output comes before it. */
  lemma {:induction false} PlainScopeRejectsRender(fs: FileSystem, compile: Compiler, pre: seq<Piece>,
                                                   options: RenderOptions, post: seq<Piece>,
                                                   block: Option<string>, fuel: nat)
    requires forall i :: 0 <= i < |pre| ==> pre[i].Text?
    ensures RenderPieces(PlainScope, fs, compile, pre + [Render(options)] + post, block, fuel) == Err(NoRenderMethod)
    decreases |pre|
  {
    var ps := pre + [Render(options)] + post;
    if |pre| > 0 {
      assert ps[0] == pre[0];
      assert ps[1..] == pre[1..] + [Render(options)] + post;
      PlainScopeRejectsRender(fs, compile, pre[1..], options, post, block, fuel);
    }
  }

  /** A page without any layout cannot use partials: its first `render`
      call fails because the page is rendered on a plain object. */
  lemma PartialsNeedLayout(fs: FileSystem, root: Path, script: Path, text: string, compile: Compiler,
                           pre: seq<Piece>, options: RenderOptions, post: seq<Piece>, fuel: nat)
    requires root < script && Layout.FindLayout(fs, root, script).None?
    requires compile(text) == Ok(pre + [Render(options)] + post)
    requires forall i :: 0 <= i < |pre| ==> pre[i].Text?
    ensures Parse(fs, root, script, text, compile, fuel) == Err(NoRenderMethod)
  {
    PlainScopeRejectsRender(fs, compile, pre, options, post, None, fuel);
  }

  /** Pieces that neither call `render` nor need anything but a block. */
  predicate Static(ps: seq<Piece>) {
    forall i :: 0 <= i < |ps| ==> !ps[i].Render?
  }

  /** The output of static pieces with `content` put where they yield. */
  function Fill(ps: seq<Piece>, content: string): string
    requires Static(ps)
  {
    if |ps| == 0 then ""
    else (if ps[0].Text? then ps[0].text else content) + Fill(ps[1..], content)
  }

  /** Rendering static pieces with a block substitutes the block for each `yield`. */
  lemma {:induction false} RenderStatic(scope: Scope, fs: FileSystem, compile: Compiler, ps: seq<Piece>,
                                        content: string, fuel: nat)
    requires Static(ps)
    ensures RenderPieces(scope, fs, compile, ps, Some(content), fuel) == Ok(Fill(ps, content))
    decreases |ps|
  {
    if |ps| > 0 {
      RenderStatic(scope, fs, compile, ps[1..], content, fuel);
    }
  }

  /** A template's pieces with every `yield` replaced by `content` as
      literal output. */
  function SubstYield(ps: seq<Piece>, content: string): (qs: seq<Piece>)
    ensures |qs| == |ps|
    ensures forall i :: 0 <= i < |ps| ==> qs[i] == (if ps[i].Yield? then Text(content) else ps[i])
  {
    seq(|ps|, i requires 0 <= i < |ps| => if ps[i].Yield? then Text(content) else ps[i])
  }

  /** Rendering with a block is rendering without one after putting the
      block's value in place of each `yield`: the block changes nothing
      else, in particular not the scope partials are resolved in. */
  lemma {:induction false} YieldIsContent(scope: Scope, fs: FileSystem, compile: Compiler, ps: seq<Piece>,
                                          content: string, fuel: nat)
    ensures RenderPieces(scope, fs, compile, ps, Some(content), fuel) ==
            RenderPieces(scope, fs, compile, SubstYield(ps, content), None, fuel)
    decreases |ps|
  {
    if |ps| > 0 {
      assert SubstYield(ps, content)[1..] == SubstYield(ps[1..], content);
      YieldIsContent(scope, fs, compile, ps[1..], content, fuel);
    }
  }

  /** With a layout, the response is the layout rendered in the context of
      the page being served, with the page's output in place of each
      `yield`; for a layout without `render` calls, that is the layout's
      text around the page's output. */
  lemma LayoutWrapsContent(fs: FileSystem, root: Path, script: Path, text: string, compile: Compiler,
                           fuel: nat, ps: seq<Piece>, content: string, layoutPieces: seq<Piece>)
    requires root < script && Layout.FindLayout(fs, root, script).Some?
    requires compile(text) == Ok(ps)
    requires RenderPieces(ContextScope(Context(root, script)), fs, compile, ps, None, fuel) == Ok(content)
    requires compile(fs[Layout.FindLayout(fs, root, script).value]) == Ok(layoutPieces)
    ensures Parse(fs, root, script, text, compile, fuel) ==
            RenderPieces(ContextScope(Context(root, script)), fs, compile, SubstYield(layoutPieces, content), None, fuel)
    ensures Static(layoutPieces) ==> Parse(fs, root, script, text, compile, fuel) == Ok(Fill(layoutPieces, content))
  {
    YieldIsContent(ContextScope(Context(root, script)), fs, compile, layoutPieces, content, fuel);
    if Static(layoutPieces) {
      RenderStatic(ContextScope(Context(root, script)), fs, compile, layoutPieces, content, fuel);
    }
  }

  /** A layout that asks for a partial asks in the context of the page being
      served, not of the layout's own file: the partial is resolved against
      the page's directory (or the root, for a token starting with '/'). */
  lemma LayoutPartialUsesPageContext(fs: FileSystem, root: Path, script: Path, text: string, compile: Compiler,
                                     fuel: nat, ps: seq<Piece>, content: string, options: RenderOptions)
    requires root < script && Layout.FindLayout(fs, root, script).Some?
    requires compile(text) == Ok(ps)
    requires RenderPieces(ContextScope(Context(root, script)), fs, compile, ps, None, fuel) == Ok(content)
    requires compile(fs[Layout.FindLayout(fs, root, script).value]) == Ok([Render(options)])
    ensures Parse(fs, root, script, text, compile, fuel) == ContextRender(Context(root, script), fs, compile, options, fuel)
    ensures PartialKey in options ==>
      Parse(fs, root, script, text, compile, fuel) == RenderPartial(Context(root, script), fs, compile, options[PartialKey], fuel)
  {
    var ctx := Context(root, script);
    LayoutWrapsContent(fs, root, script, text, compile, fuel, ps, content, [Render(options)]);
    assert SubstYield([Render(options)], content) == [Render(options)];
    if ContextRender(ctx, fs, compile, options, fuel).Ok? {
      RenderOneCall(ctx, fs, compile, options, None, fuel);
    }
  }

  /** Serving `R/x/y.haml` with the layout `R/_layout.haml` asking for `b`:
      the layout gets `R/x/_b.haml`, beside the page, while `R/_b.haml`,
      beside the layout, is never looked at. */
  lemma LayoutPartialExample(fs: FileSystem)
    requires fs == map[["srv", Layout.LayoutName] := "A", ["srv", "x", "_b.haml"] := "B"]
    ensures Parse(fs, ExampleContext.root, ExampleContext.scriptFilename, "P", ExampleCompiler, 2) == Ok("B")
    ensures ["srv", "_b.haml"] !in fs
  {
    var ctx := ExampleContext;
    ExampleLayoutFound(fs);
    RenderOneText(ContextScope(ctx), fs, ExampleCompiler, "P", None, 2);
    LayoutPartialUsesPageContext(fs, ctx.root, ctx.scriptFilename, "P", ExampleCompiler, 2, [Text("P")], "P",
                                 map[PartialKey := "b"]);
    ExampleLayoutPartial(fs);
  }

  /** The example's layout is the one in the root. */
  lemma ExampleLayoutFound(fs: FileSystem)
    requires fs == map[["srv", Layout.LayoutName] := "A", ["srv", "x", "_b.haml"] := "B"]
    ensures Layout.FindLayout(fs, ExampleContext.root, ExampleContext.scriptFilename) == Some(["srv", Layout.LayoutName])
    ensures fs[["srv", Layout.LayoutName]] == "A"
  {
    var script := ExampleContext.scriptFilename;
    assert script[..1] == ["srv"] && script[..2] == ["srv", "x"];
    assert Layout.LayoutFile(script[..1]) == ["srv", Layout.LayoutName];
    assert Layout.LayoutFile(script[..2]) == ["srv", "x", Layout.LayoutName];
    assert Layout.LayoutFile(script[..2]) !in fs by {
      assert |Layout.LayoutName| != |"_b.haml"|;
      assert ["srv", "x", Layout.LayoutName][2] != ["srv", "x", "_b.haml"][2];
    }
    Layout.NearestLayoutWins(fs, ExampleContext.root, script, 1);
  }

  /** The example layout's partial `b` is the file beside the page. */
  lemma ExampleLayoutPartial(fs: FileSystem)
    requires fs == map[["srv", Layout.LayoutName] := "A", ["srv", "x", "_b.haml"] := "B"]
    ensures RenderPartial(ExampleContext, fs, ExampleCompiler, "b", 2) == Ok("B")
  {
    ExampleLookups();
    RenderOneText(ContextScope(ExampleContext), fs, ExampleCompiler, "B", None, 1);
  }
}

=== FILE: handlers.dfy ===
/** The handler table: which handler serves which file extension, the
    content type each one sends, and the response each one builds from the
    file's text. */
module Handlers {
  import opened Results
  import opened Paths
  import opened Responses
  import Haml
  import Email
  import Redirect

  datatype Handler =
    | TextileHandler
    | MarkdownHandler
    | HamlHandler
    | SassHandler
    | EmailHandler
    | RedirectHandler

  /** The extension each handler registers itself for. */
  function Extension(h: Handler): string {
    match h
    case TextileHandler => "textile"
    case MarkdownHandler => "markdown"
    case HamlHandler => "haml"
    case SassHandler => "sass"
    case EmailHandler => "email"
    case RedirectHandler => "redirect"
  }

  /** The handler serving files with extension `ext`, if any of them does. */
  function HandlerFor(ext: string): (r: Option<Handler>)
    ensures r.Some? ==> Extension(r.value) == ext
  {
    if ext == "textile" then Some(TextileHandler)
    else if ext == "markdown" then Some(MarkdownHandler)
    else if ext == "haml" then Some(HamlHandler)
    else if ext == "sass" then Some(SassHandler)
    else if ext == "email" then Some(EmailHandler)
    else if ext == "redirect" then Some(RedirectHandler)
    else None
  }

  /** Every handler is found again under its own extension, so no two
      handlers share one. */
  lemma HandlerForExtension(h: Handler)
    ensures HandlerFor(Extension(h)) == Some(h)
  {
  }

  /** An extension has a handler exactly when it is one handler's extension. */
  lemma HandlerForIff(ext: string)
    ensures HandlerFor(ext).Some? <==> exists h :: Extension(h) == ext
  {
    if h :| Extension(h) == ext {
      HandlerForExtension(h);
    }
  }

  /** `content_type`: HTML, except for Sass, which sends CSS. */
  function ContentType(h: Handler): (t: string)
    ensures t == CssType <==> h == SassHandler
    ensures t == HtmlType <==> h != SassHandler
  {
    if h == SassHandler then CssType else HtmlType
  }

  /** The foreign converters, as functions of the file text: RedCloth,
      BlueCloth and Sass give HTML or CSS or fail with a message; the Haml
      engine compiles a template into pieces. */
  datatype Converters = Converters(
    textile: string -> Result<string, string>,
    markdown: string -> Result<string, string>,
    sass: string -> Result<string, string>,
    haml: Haml.Compiler)

  datatype HandlerError =
    | ConverterError(message: string)
    | RenderFailed(renderError: Haml.RenderError)
    | EmailFailed(emailError: Email.EmailError)

  const ShellOpen: string := "<html><body>"
  const ShellClose: string := "</body></html>"

  /** The fixed page around RedCloth's and BlueCloth's output. */
  function Shell(html: string): (page: string)
    ensures |page| == |ShellOpen| + |html| + |ShellClose|
    ensures page[..|ShellOpen|] == ShellOpen && page[|page| - |ShellClose|..] == ShellClose
    ensures page[|ShellOpen|..|page| - |ShellClose|] == html
  {
    ShellOpen + html + ShellClose
  }

  function Converted(r: Result<string, string>): Result<string, HandlerError> {
    match r
    case Ok(v) => Ok(v)
    case Err(m) => Err(ConverterError(m))
  }

  /** The body `parse` produces for the file's text, by handler. */
  function ParseBody(h: Handler, conv: Converters, fs: FileSystem, root: Path, script: Path,
                     text: string, fuel: nat): (r: Result<string, HandlerError>)
    requires h == HamlHandler ==> root < script
    ensures h == TextileHandler ==> (r.Ok? <==> conv.textile(text).Ok?)
    ensures h == MarkdownHandler ==> (r.Ok? <==> conv.markdown(text).Ok?)
    ensures h == SassHandler ==> r == Converted(conv.sass(text))
    ensures h == EmailHandler ==> (r.Err? <==> text == "")
    ensures h == EmailHandler && r.Ok? ==> r.value == Email.Parse(text).value
    ensures h == RedirectHandler ==> r == Ok(text)
    ensures h == TextileHandler && r.Ok? ==> r.value == Shell(conv.textile(text).value)
    ensures h == MarkdownHandler && r.Ok? ==> r.value == Shell(conv.markdown(text).value)
    ensures h == HamlHandler ==> (r.Ok? <==> Haml.Parse(fs, root, script, text, conv.haml, fuel).Ok?)
    ensures h == HamlHandler && r.Ok? ==> r.value == Haml.Parse(fs, root, script, text, conv.haml, fuel).value
  {
    match h
    case TextileHandler =>
      var html :- Converted(conv.textile(text));
      Ok(Shell(html))
    case MarkdownHandler =>
      var html :- Converted(conv.markdown(text));
      Ok(Shell(html))
    case HamlHandler =>
      (match Haml.Parse(fs, root, script, text, conv.haml, fuel)
       case Ok(page) => Ok(page)
       case Err(e) => Err(RenderFailed(e)))
    case SassHandler => Converted(conv.sass(text))
    case EmailHandler =>
      (match Email.Parse(text)
       case Ok(page) => Ok(page)
       case Err(e) => Err(EmailFailed(e)))
    case RedirectHandler => Ok(BaseParse(text))
  }

  /** `process` on a file with text `text`: the redirect handler answers
      with a 302 to the stripped text; every other one with a 200 page of
      its content type whose body is what its `parse` made of the text. */
  function Serve(h: Handler, conv: Converters, fs: FileSystem, root: Path, script: Path,
                 text: string, fuel: nat): (r: Result<Response, HandlerError>)
    requires h == HamlHandler ==> root < script
    ensures r.Ok? ==> (r.value.status == Found <==> h == RedirectHandler)
    ensures r.Ok? ==> r.value.contentType == ContentType(h)
    ensures r.Ok? ==> (r.value.location.Some? <==> h == RedirectHandler)
    ensures h == RedirectHandler ==> r.Ok? && r.value.body == ""
    ensures h != RedirectHandler ==> (r.Ok? <==> ParseBody(h, conv, fs, root, script, text, fuel).Ok?)
    ensures h != RedirectHandler && r.Ok? ==>
      r.value.status == OK && r.value.body == ParseBody(h, conv, fs, root, script, text, fuel).value
  {
    if h == RedirectHandler then Ok(Redirect.Process(text))
    else
      var body :- ParseBody(h, conv, fs, root, script, text, fuel);
      Ok(Page(ContentType(h), body))
  }

  /** The response to a redirect file is the one `RedirectHandler#process`
      builds, whatever the converters and the filesystem. */
  lemma ServeRedirect(conv: Converters, fs: FileSystem, root: Path, script: Path, text: string, fuel: nat)
    ensures Serve(RedirectHandler, conv, fs, root, script, text, fuel) == Ok(Redirect.Process(text))
  {
  }

  /** A Textile page is the converter's output in the HTML shell, with the
      HTML content type. */
  lemma ServeTextile(conv: Converters, fs: FileSystem, root: Path, script: Path, text: string, fuel: nat)
    requires conv.textile(text).Ok?
    ensures Serve(TextileHandler, conv, fs, root, script, text, fuel)
         == Ok(Response(200, "text/html", None, "<html><body>" + conv.textile(text).value + "</body></html>"))
  {
  }
}

=== FILE: layout.dfy ===
/** Layout discovery for Haml pages (`HamlHandler#find_layout`): starting in
    the directory of the content file, look for `_layout.haml`, then in each
    parent in turn, up to and including the content root, and stop at the
    first one found. */
module Layout {
  import opened Results
  import opened Paths

  /** The file a directory's layout must be stored in. */
  const LayoutName: string := "_layout.haml"

  /** Where directory `dir` keeps its layout. */
  function LayoutFile(dir: Path): Path {
    dir + [LayoutName]
  }

  /** One step of the ascent: `script[..n]` is the directory being checked;
      the search stops after the content root, `script[..|root|]`. */
  function Ascend(fs: FileSystem, root: Path, script: Path, n: nat): (r: Option<Path>)
    requires root <= script && |root| <= n < |script|
    ensures r.Some? ==> r.value in fs
    ensures r.Some? ==>
      exists k :: |root| <= k <= n && r.value == LayoutFile(script[..k]) &&
        forall m :: k < m <= n ==> LayoutFile(script[..m]) !in fs
    ensures r.None? <==> forall k :: |root| <= k <= n ==> LayoutFile(script[..k]) !in fs
    decreases n
  {
    if LayoutFile(script[..n]) in fs then Some(LayoutFile(script[..n]))
    else if n == |root| then None
    else Ascend(fs, root, script, n - 1)
  }

  /** The layout for content file `script` under content root `root`: the
      nearest `_layout.haml` among the file's own directory and its ancestors
      up to the root, or None when none of them holds one. Directories above
      the root are never looked at. */
  function FindLayout(fs: FileSystem, root: Path, script: Path): (r: Option<Path>)
    requires root < script
    ensures r.Some? ==> r.value in fs
    ensures r.Some? ==>
      exists k :: |root| <= k < |script| && r.value == LayoutFile(script[..k]) &&
        forall m :: k < m < |script| ==> LayoutFile(script[..m]) !in fs
    ensures r.None? <==> forall k :: |root| <= k < |script| ==> LayoutFile(script[..k]) !in fs
  {
    Ascend(fs, root, script, |script| - 1)
  }

  /** The layout found lies in a directory inside the content root. */
  lemma FindLayoutWithinRoot(fs: FileSystem, root: Path, script: Path)
    requires root < script
    ensures var r := FindLayout(fs, root, script);
      r.Some? ==> root < r.value && r.value[|r.value| - 1] == LayoutName && r.value[..|r.value| - 1] <= script
  {
    var r := FindLayout(fs, root, script);
    if r.Some? {
      var k :| |root| <= k < |script| && r.value == LayoutFile(script[..k]);
      assert r.value[..|r.value| - 1] == script[..k];
      assert r.value[..|root|] == script[..k][..|root|] == root;
    }
  }

  /** Nearest ancestor wins: a layout in directory `script[..n]` is the
      answer exactly when no directory between it and the file holds one. */
  lemma NearestLayoutWins(fs: FileSystem, root: Path, script: Path, n: nat)
    requires root < script && |root| <= n < |script|
    requires LayoutFile(script[..n]) in fs
    ensures FindLayout(fs, root, script) == Some(LayoutFile(script[..n])) <==>
      forall m :: n < m < |script| ==> LayoutFile(script[..m]) !in fs
  {
    if !(forall m :: n < m < |script| ==> LayoutFile(script[..m]) !in fs) {
      var m :| n < m < |script| && LayoutFile(script[..m]) in fs;
    }
  }

  /** The example of a content file `R/a/b/c.haml` with layouts in both `R/a`
      and `R`: the one in `R/a` is used; with neither, there is no layout. */
  lemma NearestLayoutExample(root: Path, layoutA: string, layoutRoot: string)
    ensures var script := root + ["a", "b", "c.haml"];
      var fs := map[root + ["a", LayoutName] := layoutA, root + [LayoutName] := layoutRoot];
      FindLayout(fs, root, script) == Some(root + ["a", LayoutName])
    ensures FindLayout(map[], root, root + ["a", "b", "c.haml"]) == None
  {
    var script := root + ["a", "b", "c.haml"];
    var fs := map[root + ["a", LayoutName] := layoutA, root + [LayoutName] := layoutRoot];
    assert script[..|root| + 1] == root + ["a"];
    assert LayoutFile(script[..|root| + 1]) == root + ["a", LayoutName];
    assert script[..|root| + 2] == root + ["a", "b"];
    assert LayoutFile(script[..|root| + 2]) == root + ["a", "b", LayoutName];
    assert LayoutFile(script[..|root| + 2]) !in fs by {
      assert (root + ["a", "b", LayoutName])[|root| + 1] == "b";
      assert (root + ["a", LayoutName])[|root| + 1] == LayoutName;
    }
    NearestLayoutWins(fs, root, script, |root| + 1);
  }

  /** A content root that is the filesystem root itself is searched like any
      other: the file's directory, then the root, and then the search ends. */
  lemma FilesystemRootTerminates()
    ensures FindLayout(map[], [], ["a", "b.haml"]) == None
    ensures FindLayout(map[[LayoutName] := ""], [], ["a", "b.haml"]) == Some([LayoutName])
  {
    var fs := map[[LayoutName] := ""];
    var script := ["a", "b.haml"];
    assert script[..0] == [];
    assert script[..1] == ["a"];
    assert LayoutFile(script[..0]) == [LayoutName];
    assert LayoutFile(script[..1]) !in fs;
    NearestLayoutWins(fs, [], script, 0);
  }
}

=== FILE: layout_as_written.dfy ===
/** `find_layout` as the Ruby code computes it, on path strings. The relative
    path is `filename[root.size..-1]`; each round takes its `File.dirname`,
    checks `File.join(root, path, '_layout.haml')`, and the loop ends when a
    layout is found or the relative path has become "/". When the content
    root is "/" itself the relative path loses its leading '/', `File.dirname`
    bottoms out at "." instead of "/", and without a layout the loop never
    ends. `Layout.FindLayout` is the search as intended. */
module LayoutAsWritten {
  import opened Results

  /** Position of the last `c` in `s`. */
  function LastIndexOf(s: string, c: char): (r: Option<nat>)
    ensures r.Some? ==> r.value < |s| && s[r.value] == c && forall i :: r.value < i < |s| ==> s[i] != c
    ensures r.None? ==> forall i :: 0 <= i < |s| ==> s[i] != c
  {
    if |s| == 0 then None
    else if s[|s| - 1] == c then Some(|s| - 1)
    else LastIndexOf(s[..|s| - 1], c)
  }

  /** `File.dirname` for names without repeated or trailing '/': everything
      before the last '/', "/" when that is the first character, and "." for
      a name without any '/'. */
  function Dirname(s: string): string {
    match LastIndexOf(s, '/')
    case None => "."
    case Some(i) => if i == 0 then "/" else s[..i]
  }

  /** `File.join` of two names: exactly one '/' between them. */
  function Join(a: string, b: string): string {
    if |a| > 0 && a[|a| - 1] == '/' then
      if |b| > 0 && b[0] == '/' then a + b[1..] else a + b
    else if |b| > 0 && b[0] == '/' then a + b
    else a + "/" + b
  }

  /** The `begin … end until layout or path == "/"` loop from relative path
      `path`: Some(answer) once the loop has ended, None when `fuel` rounds
      were not enough for it to end. */
  function Loop(files: set<string>, root: string, path: string, fuel: nat): Option<Option<string>>
    decreases fuel
  {
    if fuel == 0 then None
    else
      var dir := Dirname(path);
      var candidate := Join(Join(root, dir), "_layout.haml");
      if candidate in files then Some(Some(candidate))
      else if dir == "/" then Some(None)
      else Loop(files, root, dir, fuel - 1)
  }

  /** `find_layout(filename)` with `Dir.pwd` as `root`, given `fuel` rounds. */
  function FindLayoutAsWritten(files: set<string>, root: string, filename: string, fuel: nat): Option<Option<string>>
    requires |root| <= |filename|
  {
    Loop(files, root, filename[|root|..], fuel)
  }

  /** Once the relative path is ".", no number of rounds ends the loop,
      unless the layout it keeps looking for exists. */
  lemma {:induction false} StuckAtDot(files: set<string>, root: string, fuel: nat)
    requires Join(Join(root, "."), "_layout.haml") !in files
    ensures Loop(files, root, ".", fuel) == None
  {
    if fuel > 0 {
      assert Dirname(".") == ".";
      StuckAtDot(files, root, fuel - 1);
    }
  }

  /** The directory of `dir/name` is `dir`. */
  lemma DirnameOfChild(dir: string, name: string)
    requires |dir| > 0 && '/' !in name
    ensures Dirname(dir + "/" + name) == dir
  {
    var rel := dir + "/" + name;
    assert rel[|dir|] == '/';
    assert LastIndexOf(rel, '/') == Some(|dir|) by {
      forall k | |dir| < k < |rel|
        ensures rel[k] != '/'
      {
        assert rel[k] == name[k - |dir| - 1];
      }
    }
    assert rel[..|dir|] == dir;
  }

  /** A name without '/' has "." as its directory. */
  lemma DirnameOfName(dir: string)
    requires '/' !in dir
    ensures Dirname(dir) == "."
  {
  }

  /** The candidate checked for the relative path "." under the root "/". */
  lemma DotCandidate()
    ensures Join(Join("/", "."), "_layout.haml") == "/./_layout.haml"
  {
    assert Join("/", ".") == "/.";
  }

  /** With "/" as the content root, a request for `/dir/name` in a tree
      without any layout never finishes the search, however many rounds it is
      given. */
  lemma RootSlashNeverEnds(dir: string, name: string, fuel: nat)
    requires |dir| > 0 && '/' !in dir && |name| > 0 && '/' !in name
    ensures FindLayoutAsWritten({}, "/", "/" + dir + "/" + name, fuel) == None
  {
    var rel := dir + "/" + name;
    assert ("/" + dir + "/" + name)[1..] == rel;
    DirnameOfChild(dir, name);
    DirnameOfName(dir);
    DotCandidate();
    assert dir != "/" by {
      assert dir[0] != '/';
    }
    if fuel > 1 {
      assert Loop({}, "/", rel, fuel) == Loop({}, "/", dir, fuel - 1);
      assert Loop({}, "/", dir, fuel - 1) == Loop({}, "/", ".", fuel - 2);
      StuckAtDot({}, "/", fuel - 2);
    } else if fuel == 1 {
      assert Loop({}, "/", rel, fuel) == Loop({}, "/", dir, 0);
    }
  }

  /** A top-level name `/dir` has "/" as its directory. */
  lemma DirnameOfTopName(dir: string)
    requires |dir| > 0 && '/' !in dir
    ensures Dirname("/" + dir) == "/"
  {
    var p := "/" + dir;
    assert LastIndexOf(p, '/') == Some(0) by {
      assert p[0] == '/';
      forall k | 0 < k < |p|
        ensures p[k] != '/'
      {
        assert p[k] == dir[k - 1];
      }
    }
  }

  /** When the file name is the content root followed by `/dir/name`, the
      relative path keeps its leading '/', so `File.dirname` reaches "/" and
      the search ends after two rounds with no layout, whatever the root. */
  lemma OrdinaryRootEnds(root: string, dir: string, name: string)
    requires |dir| > 0 && '/' !in dir && |name| > 0 && '/' !in name
    ensures FindLayoutAsWritten({}, root, root + "/" + dir + "/" + name, 2) == Some(None)
  {
    var filename := root + "/" + dir + "/" + name;
    var rel := "/" + dir + "/" + name;
    assert filename[|root|..] == rel;
    DirnameOfChild("/" + dir, name);
    DirnameOfTopName(dir);
    assert "/" + dir != "/" by {
      assert |"/" + dir| > 1;
    }
  }
}

=== FILE: paths.dfy ===
/** Paths as sequences of names ("segments"). The content root and every file
    are absolute paths, so `/srv/site/a/b.haml` is `["srv", "site", "a", "b.haml"]`
    and the filesystem root `/` is the empty path. The filesystem is the map
    from the paths of existing regular files to their text: `File.file?(p)` is
    `p in fs` and `IO.read(p)` is `fs[p]`. */
module Paths {

  type Path = seq<string>

  type FileSystem = map<Path, string>

  /** A name the operating system can hold in one directory entry. */
  predicate IsSegment(s: string) {
    |s| > 0 && '/' !in s
  }

  predicate EndsWith(s: string, suffix: string) {
    |suffix| <= |s| && s[|s| - |suffix|..] == suffix
  }

  /** `File.dirname`: the directory holding `p`; the root is its own parent. */
  function Dirname(p: Path): (d: Path)
    ensures |p| == 0 ==> d == []
    ensures |p| > 0 ==> d + [p[|p| - 1]] == p
  {
    if |p| == 0 then [] else p[..|p| - 1]
  }

  /** Length of the first name in `s`: the run of characters before the first '/'. */
  function SegmentLength(s: string): (n: nat)
    ensures n <= |s|
    ensures forall i :: 0 <= i < n ==> s[i] != '/'
    ensures n == |s| || s[n] == '/'
  {
    if |s| == 0 || s[0] == '/' then 0 else 1 + SegmentLength(s[1..])
  }

  /** The names a relative file name stands for once `File.join` has put it
      under a directory and the operating system looks it up: the pieces
      between '/' characters, empty pieces dropped (`a//b` is `a/b`). */
  function Segments(s: string): Path
    decreases |s|
  {
    if |s| == 0 then []
    else if s[0] == '/' then Segments(s[1..])
    else
      var n := SegmentLength(s);
      [s[..n]] + Segments(s[n..])
  }

  /** Every piece `Segments` yields is a name. */
  lemma {:induction false} SegmentsAreNames(s: string)
    ensures forall i :: 0 <= i < |Segments(s)| ==> IsSegment(Segments(s)[i])
    decreases |s|
  {
    if |s| == 0 {
    } else if s[0] == '/' {
      SegmentsAreNames(s[1..]);
    } else {
      var n := SegmentLength(s);
      SegmentsAreNames(s[n..]);
      SegmentsCons(s, n);
      assert '/' !in s[..n];
    }
  }

  /** A single name is a single segment. */
  lemma SegmentsOfSegment(s: string)
    requires IsSegment(s)
    ensures Segments(s) == [s]
  {
    assert s[0] != '/';
    assert SegmentLength(s) == |s|;
    assert s[..|s|] == s;
    assert s[|s|..] == "";
  }

  /** A relative name that does not start with '/' keeps its first character
      as the first character of its first segment. */
  lemma SegmentsFirst(s: string)
    requires |s| > 0 && s[0] != '/'
    ensures |Segments(s)| > 0 && |Segments(s)[0]| > 0 && Segments(s)[0][0] == s[0]
  {
    var n := SegmentLength(s);
    assert Segments(s)[0] == s[..n];
  }

  /** A name followed by '/' ends where the '/' starts. */
  lemma {:induction false} SegmentLengthBeforeSlash(a: string, c: string)
    requires |c| > 0 && c[0] == '/'
    ensures SegmentLength(a + c) == SegmentLength(a)
    decreases |a|
  {
    if |a| > 0 && a[0] != '/' {
      assert (a + c)[1..] == a[1..] + c;
      SegmentLengthBeforeSlash(a[1..], c);
    }
  }

  /** Joining two relative names with '/' concatenates their segments. */
  lemma SegmentsOfJoin(a: string, b: string)
    ensures Segments(a + "/" + b) == Segments(a) + Segments(b)
  {
    var c := "/" + b;
    assert a + "/" + b == a + c;
    assert c[1..] == b;
    SegmentsAppend(a, c);
  }

  /** Text starting with '/' appended to a name adds its own segments. */
  lemma {:induction false} SegmentsAppend(a: string, c: string)
    requires |c| > 0 && c[0] == '/'
    ensures Segments(a + c) == Segments(a) + Segments(c)
    decreases |a|
  {
    if |a| == 0 {
      assert a + c == c;
    } else if a[0] == '/' {
      SegmentsAppend(a[1..], c);
      assert (a + c)[1..] == a[1..] + c;
    } else {
      var n := SegmentLength(a);
      SegmentsAppend(a[n..], c);
      FirstNameBeforeSlash(a, c);
      SegmentsOfJoinStep(a + c, a, n, Segments(c));
    }
  }

  /** One unfolding of `Segments` past a first name. */
  lemma SegmentsCons(s: string, n: nat)
    requires |s| > 0 && s[0] != '/' && n == SegmentLength(s)
    ensures Segments(s) == [s[..n]] + Segments(s[n..])
  {
  }

  /** `a` followed by text starting with '/' starts with the first name of
      `a`, and goes on with the rest of `a`, then that text. */
  lemma FirstNameBeforeSlash(a: string, c: string)
    requires |a| > 0 && a[0] != '/' && |c| > 0 && c[0] == '/'
    ensures var n := SegmentLength(a);
      && (a + c)[0] != '/' && SegmentLength(a + c) == n
      && (a + c)[..n] == a[..n] && (a + c)[n..] == a[n..] + c
  {
    SegmentLengthBeforeSlash(a, c);
    var n := SegmentLength(a);
    assert (a + c)[..n] == a[..n];
    assert (a + c)[n..] == a[n..] + c;
  }

  /** The step of `SegmentsOfJoin`: two names that share their first
      segment and whose rests agree up to a tail agree up to that tail. */
  lemma SegmentsOfJoinStep(s: string, a: string, n: nat, tail: Path)
    requires |a| > 0 && a[0] != '/' && n == SegmentLength(a)
    requires |s| > 0 && s[0] != '/' && n == SegmentLength(s) && s[..n] == a[..n]
    requires Segments(s[n..]) == Segments(a[n..]) + tail
    ensures Segments(s) == Segments(a) + tail
  {
    SegmentsCons(s, n);
    SegmentsCons(a, n);
    assert [a[..n]] + (Segments(a[n..]) + tail) == ([a[..n]] + Segments(a[n..])) + tail;
  }

  /** A relative name ending in a '/'-free suffix names a file whose last
      segment ends with that suffix. */
  lemma {:induction false} SegmentsLast(s: string, t: string)
    requires IsSegment(t)
    ensures var p := Segments(s + t); |p| > 0 && EndsWith(p[|p| - 1], t)
    decreases |s|
  {
    var u := s + t;
    if |s| == 0 {
      assert u == t;
      SegmentsOfSegment(t);
    } else if s[0] == '/' {
      SegmentsLast(s[1..], t);
      assert u[1..] == s[1..] + t;
    } else {
      var n := SegmentLength(u);
      if n < |s| {
        SegmentsLast(s[n..], t);
        assert u[n..] == s[n..] + t;
        assert u[0] == s[0];
        SegmentsLastStep(u, n, t);
      } else {
        SegmentsLastWhole(s, t);
      }
    }
  }

  /** The step of `SegmentsLast` past a first name: the last segment of
      the rest is the last segment of the whole. */
  lemma SegmentsLastStep(u: string, n: nat, t: string)
    requires |u| > 0 && u[0] != '/' && n == SegmentLength(u)
    requires var q := Segments(u[n..]); |q| > 0 && EndsWith(q[|q| - 1], t)
    ensures var p := Segments(u); |p| > 0 && EndsWith(p[|p| - 1], t)
  {
    SegmentsCons(u, n);
  }

  /** When `s + t` has no '/' after its start, it is one segment, ending with `t`. */
  lemma SegmentsLastWhole(s: string, t: string)
    requires IsSegment(t) && |s| > 0 && s[0] != '/'
    requires SegmentLength(s + t) >= |s|
    ensures var p := Segments(s + t); |p| > 0 && EndsWith(p[|p| - 1], t)
  {
    var u := s + t;
    var n := SegmentLength(u);
    assert forall i :: |s| <= i < |u| ==> u[i] == t[i - |s|];
    assert n == |u|;
    assert u[..n] == u;
    assert u[n..] == "";
    assert Segments(u) == [u];
    assert u[|u| - |t|..] == t;
  }
}

=== FILE: redirect.dfy ===
/** Redirect files (`RedirectHandler#process`): the file holds the target
    address, and the response sends the client there. */
module Redirect {
  import opened Results
  import opened Text
  import opened Responses

  /** The inherited `process` reads the text through the base `parse` and
      sets the `text/html` content type; the override then puts the stripped
      text in `location`, empties the body and raises `Found`, which the
      server turns into status 302. */
  function Process(text: string): (res: Response)
    ensures res.status == Found && res.body == ""
    ensures res.contentType == HtmlType
    ensures res.location.Some? && IsStripOf(res.location.value, text)
  {
    Response(Found, HtmlType, Some(Strip(BaseParse(text))), "")
  }

  /** The location is the one address the text holds, whitespace around it
      dropped, and it does not depend on that whitespace. */
  lemma LocationIsTarget(pre: string, target: string, post: string)
    requires AllSpace(pre) && AllSpace(post) && Trimmed(target)
    ensures Process(pre + target + post).location == Some(target)
  {
    StripOf(pre, target, post);
  }

  /** A redirect file holding exactly the location of another redirects to
      the same place. */
  lemma RedirectIdempotent(text: string)
    ensures Process(Process(text).location.value).location == Process(text).location
  {
    StripIdempotent(text);
  }

  /** A padded address on its own line. */
  lemma RedirectExample()
    ensures Process("  /new/path \n") == Response(302, "text/html", Some("/new/path"), "")
  {
    assert AllSpace("  ") && AllSpace(" \n") && Trimmed("/new/path");
    assert "  " + "/new/path" + " \n" == "  /new/path \n";
    LocationIsTarget("  ", "/new/path", " \n");
  }
}

=== FILE: responses.dfy ===
/** What a file-type handler hands back to the server: the response record
    its servlet fills in, and the defaults every handler inherits. */
module Responses {
  import opened Results

  const OK: nat := 200
  const Found: nat := 302

  const HtmlType: string := "text/html"
  const CssType: string := "text/css"

  /** The parts of the HTTP response a handler sets: the status, the
      `content-type` and `location` headers, and the body. */
  datatype Response = Response(status: nat, contentType: string, location: Option<string>, body: string)

  /** The inherited `parse`: the file text, unchanged. */
  function BaseParse(text: string): string {
    text
  }

  /** The response the inherited `process` produces: status 200, the
      handler's content type, and the parsed text as the body. */
  function Page(contentType: string, body: string): (res: Response)
    ensures res.status == OK && res.location.None?
    ensures res.contentType == contentType && res.body == body
  {
    Response(OK, contentType, None, body)
  }
}

=== FILE: results.dfy ===
/** Option and Result types shared by the model. A Ruby method that answers
    nil becomes None; one that raises becomes Err carrying what it raised. */
module Results {

  datatype Option<+T> = None | Some(value: T)

  datatype Result<+T, +E> = Ok(value: T) | Err(error: E) {

    predicate IsFailure() {
      Err?
    }

    function PropagateFailure<U>(): Result<U, E>
      requires Err?
    {
      Err(error)
    }

    function Extract(): T
      requires Ok?
    {
      value
    }
  }
}

=== FILE: text.dfy ===
/** The handful of Ruby string operations the handlers rely on: `strip`,
    splitting at the first occurrence of a character, Ruby 1.8's line-wise
    `String#each`, and `Array#join`. */
module Text {
  import opened Results

  /** Ruby's whitespace: space, tab, line feed, vertical tab, form feed, carriage return. */
  predicate IsSpace(c: char) {
    c == ' ' || c == '\t' || c == '\n' || c == '\U{000B}' || c == '\U{000C}' || c == '\r'
  }

  predicate AllSpace(s: string) {
    forall i :: 0 <= i < |s| ==> IsSpace(s[i])
  }

  /** Number of whitespace characters `s` starts with. */
  function LeadingSpace(s: string): (n: nat)
    ensures n <= |s|
    ensures AllSpace(s[..n])
    ensures n == |s| || !IsSpace(s[n])
  {
    if |s| > 0 && IsSpace(s[0]) then 1 + LeadingSpace(s[1..]) else 0
  }

  /** Number of whitespace characters `s` ends with. */
  function TrailingSpace(s: string): (n: nat)
    ensures n <= |s|
    ensures AllSpace(s[|s| - n..])
    ensures n == |s| || !IsSpace(s[|s| - n - 1])
  {
    if |s| > 0 && IsSpace(s[|s| - 1]) then 1 + TrailingSpace(s[..|s| - 1]) else 0
  }

  /** What `s.strip` means: `r` is a stretch of `s` with only whitespace
      around it, and neither starts nor ends with whitespace itself. */
  ghost predicate IsStripOf(r: string, s: string) {
    && Trimmed(r)
    && exists i, j :: 0 <= i <= j <= |s| && r == s[i..j] && AllSpace(s[..i]) && AllSpace(s[j..])
  }

  /** Ruby's `String#strip`. */
  function Strip(s: string): (r: string)
    ensures IsStripOf(r, s)
    ensures |r| <= |s|
  {
    var i := LeadingSpace(s);
    if i == |s| then
      assert s[..0] == "" && s[0..0] == "" && s[0..] == s[..i];
      ""
    else
      var t := TrailingSpace(s);
      s[i..|s| - t]
  }

  /** `Strip` is the one way to strip a string. */
  lemma StripCharacterized(r: string, s: string)
    requires IsStripOf(r, s)
    ensures r == Strip(s)
  {
    var i, j :| 0 <= i <= j <= |s| && r == s[i..j] && AllSpace(s[..i]) && AllSpace(s[j..]);
    if r == "" {
      StripAllSpace(s, i, j);
    } else {
      StripAround(r, s, i, j);
    }
  }

  /** Only whitespace around an empty stretch: the whole text is whitespace
      and strips to "". */
  lemma StripAllSpace(s: string, i: nat, j: nat)
    requires i <= j <= |s| && s[i..j] == "" && AllSpace(s[..i]) && AllSpace(s[j..])
    ensures Strip(s) == ""
  {
    assert AllSpace(s) by {
      forall k | 0 <= k < |s|
        ensures IsSpace(s[k])
      {
        if k < i { assert s[k] == s[..i][k]; } else { assert s[k] == s[j..][k - j]; }
      }
    }
  }

  /** A non-empty stretch with no whitespace at its ends and only whitespace
      around it starts where the leading whitespace ends and stops where the
      trailing whitespace starts. */
  lemma StripAround(r: string, s: string, i: nat, j: nat)
    requires i <= j <= |s| && r == s[i..j] && AllSpace(s[..i]) && AllSpace(s[j..])
    requires r != "" && Trimmed(r)
    ensures r == Strip(s)
  {
    var n := LeadingSpace(s);
    var t := TrailingSpace(s);
    assert s[i] == r[0] && s[j - 1] == r[|r| - 1];
    SpaceBefore(s, i);
    SpaceBefore(s, n);
    SpaceAfter(s, j);
    SpaceAfter(s, |s| - t);
    assert n == i;
    assert |s| - t == j;
  }

  lemma SpaceBefore(s: string, i: nat)
    requires i <= |s| && AllSpace(s[..i])
    ensures forall k :: 0 <= k < i ==> IsSpace(s[k])
  {
    forall k | 0 <= k < i
      ensures IsSpace(s[k])
    {
      assert s[k] == s[..i][k];
    }
  }

  lemma SpaceAfter(s: string, j: nat)
    requires j <= |s| && AllSpace(s[j..])
    ensures forall k :: j <= k < |s| ==> IsSpace(s[k])
  {
    forall k | j <= k < |s|
      ensures IsSpace(s[k])
    {
      assert s[k] == s[j..][k - j];
    }
  }

  /** There is only one way to strip a string. */
  lemma StripUnique(r1: string, r2: string, s: string)
    requires IsStripOf(r1, s) && IsStripOf(r2, s)
    ensures r1 == r2
  {
    StripCharacterized(r1, s);
    StripCharacterized(r2, s);
  }

  /** Text with no whitespace at either end, as `strip` leaves it. */
  predicate Trimmed(t: string) {
    t == "" || (!IsSpace(t[0]) && !IsSpace(t[|t| - 1]))
  }

  /** Stripping removes exactly the whitespace around the text. */
  lemma StripOf(pre: string, r: string, post: string)
    requires AllSpace(pre) && AllSpace(post)
    requires Trimmed(r)
    ensures Strip(pre + r + post) == r
  {
    var s := pre + r + post;
    assert s[..|pre|] == pre && s[|pre|..|pre| + |r|] == r && s[|pre| + |r|..] == post;
    StripCharacterized(r, s);
  }

  /** Text `strip` would leave alone is its own strip. */
  lemma StripTrimmed(t: string)
    requires Trimmed(t)
    ensures Strip(t) == t
  {
    assert t[..0] == "" && t[0..|t|] == t && t[|t|..] == "";
    StripCharacterized(t, t);
  }

  /** Stripping twice is stripping once. */
  lemma StripIdempotent(s: string)
    ensures Strip(Strip(s)) == Strip(s)
  {
    var r := Strip(s);
    assert r[0..|r|] == r && r[..0] == "" && r[|r|..] == "";
    assert IsStripOf(r, r);
    StripUnique(Strip(r), r, r);
  }

  /** Position of the first `c` in `s`. */
  function IndexOf(s: string, c: char): (r: Option<nat>)
    ensures r.Some? ==> r.value < |s| && s[r.value] == c && forall i :: 0 <= i < r.value ==> s[i] != c
    ensures r.None? <==> c !in s
  {
    if |s| == 0 then None
    else if s[0] == c then Some(0)
    else match IndexOf(s[1..], c)
      case None => None
      case Some(i) => Some(i + 1)
  }

  function Concat(ls: seq<string>): string {
    if |ls| == 0 then "" else ls[0] + Concat(ls[1..])
  }

  /** A line as Ruby 1.8's `String#each` yields it: not empty, and a line feed
      at most as its last character. */
  predicate IsLine(l: string) {
    |l| > 0 && forall i :: 0 <= i < |l| - 1 ==> l[i] != '\n'
  }

  predicate EndsWithLineFeed(l: string) {
    |l| > 0 && l[|l| - 1] == '\n'
  }

  /** The length of the first line of a non-empty `s`, line feed included. */
  function FirstLineLength(s: string): (n: nat)
    requires |s| > 0
    ensures 0 < n <= |s| && IsLine(s[..n])
    ensures n < |s| ==> EndsWithLineFeed(s[..n])
  {
    if s[0] == '\n' || |s| == 1 then 1
    else
      var m := FirstLineLength(s[1..]);
      assert s[..m + 1] == [s[0]] + s[1..][..m];
      m + 1
  }

  /** Ruby 1.8's `String#each`: the lines of `s`, each keeping its line feed;
      an empty string has no lines. */
  function Lines(s: string): seq<string>
    decreases |s|
  {
    if |s| == 0 then []
    else
      var n := FirstLineLength(s);
      [s[..n]] + Lines(s[n..])
  }

  /** The lines put back together are the text. */
  lemma {:induction false} LinesConcat(s: string)
    ensures Concat(Lines(s)) == s
    decreases |s|
  {
    if |s| > 0 {
      var n := FirstLineLength(s);
      var ls := Lines(s);
      assert ls[1..] == Lines(s[n..]);
      LinesConcat(s[n..]);
      assert s[..n] + s[n..] == s;
    }
  }

  /** Every line is a line, and every line but the last ends with its line feed. */
  lemma {:induction false} LinesShape(s: string)
    ensures forall k :: 0 <= k < |Lines(s)| ==> IsLine(Lines(s)[k])
    ensures forall k :: 0 <= k < |Lines(s)| - 1 ==> EndsWithLineFeed(Lines(s)[k])
    decreases |s|
  {
    if |s| > 0 {
      var n := FirstLineLength(s);
      var rest := Lines(s[n..]);
      LinesShape(s[n..]);
      var ls := Lines(s);
      assert forall k :: 1 <= k < |ls| ==> ls[k] == rest[k - 1];
      if n == |s| {
        assert s[n..] == [];
      }
    }
  }

  /** The first line ends at the first line feed, or at the end of the text. */
  lemma {:induction false} FirstLineLengthIs(s: string, n: nat)
    requires 0 < n <= |s|
    requires forall i :: 0 <= i < n - 1 ==> s[i] != '\n'
    requires n == |s| || s[n - 1] == '\n'
    ensures FirstLineLength(s) == n
  {
    if n > 1 {
      FirstLineLengthIs(s[1..], n - 1);
    }
  }

  /** A text without a line feed is one line. */
  lemma LinesOfOne(c: string)
    requires '\n' !in c && |c| > 0
    ensures Lines(c) == [c]
  {
    FirstLineLengthIs(c, |c|);
    assert c[..|c|] == c;
    assert c[|c|..] == [];
  }

  /** A text with one line feed in it has two lines, the first keeping the line feed. */
  lemma LinesOfTwo(a: string, c: string)
    requires '\n' !in a && '\n' !in c && |c| > 0
    ensures Lines(a + "\n" + c) == [a + "\n", c]
  {
    var s := a + "\n" + c;
    var n := |a| + 1;
    assert s[..n] == a + "\n";
    assert s[n..] == c;
    FirstLineLengthIs(s, n);
    LinesOfOne(c);
  }

  /** `Array#join(sep)`. */
  function Join(ps: seq<string>, sep: string): string {
    if |ps| == 0 then ""
    else if |ps| == 1 then ps[0]
    else ps[0] + sep + Join(ps[1..], sep)
  }

  /** Joining two non-empty lists is joining each and putting `sep` between. */
  lemma {:induction false} JoinAppend(ps: seq<string>, qs: seq<string>, sep: string)
    requires |ps| > 0 && |qs| > 0
    ensures Join(ps + qs, sep) == Join(ps, sep) + sep + Join(qs, sep)
    decreases |ps|
  {
    if |ps| == 1 {
      assert (ps + qs)[1..] == qs;
    } else {
      assert (ps + qs)[1..] == ps[1..] + qs;
      JoinAppend(ps[1..], qs, sep);
    }
  }

  /** Joining a list that ends in three given pieces. */
  lemma JoinThree(front: seq<string>, x: string, y: string, z: string, sep: string)
    requires |front| > 0
    ensures Join(front + [x, y, z], sep) == Join(front, sep) + sep + x + sep + y + sep + z
  {
    JoinAppend(front, [x, y, z], sep);
    assert [x, y, z][1..] == [y, z];
    assert [y, z][1..] == [z];
    assert Join([z], sep) == z;
    assert Join([y, z], sep) == y + sep + z;
    assert Join([x, y, z], sep) == x + sep + (y + sep + z);
  }
}
